=== FILE: README.md ===
# NeoTrellis matrix driver — a Dafny model

This project models the logical core of the Adafruit NeoTrellis CircuitPython
driver:

- **One NeoTrellis board** (`adafruit_neotrellis/neotrellis.py`). This covers:
  - the `_key`/`_seesaw_key` helpers;
  - the 64-entry callback table a fresh board starts with;
  - `activate_key`;
  - the decode-and-dispatch half of `sync`. Each response byte is split into a key number and an edge code. The registered callback for that key, if any, runs with the event.
- **A matrix of boards** (`adafruit_neotrellis/multitrellis.py`). This covers:
  - the constructor, which checks the grid's shape, gives every board its `x_base`/`y_base` offsets as prefix sums of the widths and heights, and fills the `key_pads` table that maps each global cell to its owning board;
  - the accessors;
  - `get_key_pad`;
  - `set_callback`, `color` and `activate_key`, each routed to the owning board's local slot;
  - `sync`, which polls every board once, in row-major order.

Modules:

| file | module | contents |
|---|---|---|
| `common.dfy` | `Common` | `Option`, `Result` |
| `arith.dfy` | `Arith` | two integer facts used by the index proofs |
| `prefix_sums.dfy` | `PrefixSums` | prefix sums, and `Locate`: which interval of a partition holds a value |
| `neotrellis.dfy` | `NeoTrellis` | the board: key helpers, `Board`, key index, event decoding, `Dispatch`, `Sync` |
| `tiling.dfy` | `Tiling` | grid shape (`Shaped`), the reference layout `Layout`, and the tiling invariant `Tiled` |
| `multitrellis.dfy` | `MultiTrellis` | the constructor as loops (`Build`), the accessors, cell-addressed operations, and the matrix `sync` |

How the model represents the driver:

- **Boards are immutable values.** The Python constructor writes `x_base`/`y_base` into the caller's board objects. `Build` instead returns a grid of copies that carry the offsets. `SameBoard` relates a copy to its original.
- **The `key_pads` table holds grid positions.** It stores `Pos(row, col)` rather than object references. `BoardAt` resolves a position to its board.
- **Callbacks are opaque handler identities.** Running a callback is recorded as an `Invocation(handler, event)` in a trace, so `sync` becomes a function from its inputs to the sequence of calls it makes.
- **Pixels form an abstract map** from local index to an opaque `Color`.
- **Transport results become inputs.** The board's `count` register and the buffer `read_keypad` returns are arguments (`Poll`).
- **Transport calls become records.** The number of entries `sync` asks `read_keypad` for is returned as `requested`. The `set_event` call that `activate_key` makes is returned as a `SetEventCall`.
- **`key_index` is assumed, not verified.** The board's geometry and `key_index` belong to the seesaw `Keypad` base class, which is not part of this model. `NeoTrellis.KeyIndex` is the assumed row-major formula `(y - y_base) * width + (x - x_base)`. Every routing result depends on it.

Facts about the code that the model follows:

- **Which dimension is shared.** The constructor's asserts make every board in a grid-row as high as the row's first board, and every board in a grid-column as wide as the column's first board (`multitrellis.py:61-64`). The comments beside those asserts state the same constraint from the side of whole grid-columns and grid-rows: equal heights along every grid-row give every grid-column the same sequence of heights, and equal widths down every grid-column give every grid-row the same sequence of widths.
- **Event numbers are board-local.** Events are dispatched to the board's own callbacks with the board-local key number (`neotrellis.py:97-102`). Nothing translates them to global `(x, y)` coordinates.
- **No bounds checking.** The driver's cell-addressed operations do no bounds check of their own and raise no dedicated out-of-range error. The model requires `0 <= x < width` and `0 <= y < height`.
- **No further board state.** The driver's board keeps no pending-data flag and offers no callback getter. `MultiTrellis.CallbackAt` is a view that the model uses only to state properties.

## Model

| member | source | states |
|---|---|---|
| NeoTrellis.Key | adafruit_neotrellis/neotrellis.py:65-66 | `_key` returns every non-negative key unchanged. With Python's truncating `int()` and flooring `%`, a negative key that is not a multiple of 8 comes back 8 higher. |
| NeoTrellis.SeesawKey | adafruit_neotrellis/neotrellis.py:69-70 | `_seesaw_key` behaves exactly as `_key` does. |
| NeoTrellis.NewBoard | adafruit_neotrellis/neotrellis.py:75-79 | A fresh board has a callback table of exactly 64 entries, all empty, and no pixel set. |
| NeoTrellis.KeyIndexRoundTrip | adafruit_neotrellis/multitrellis.py:119-120 | For a cell inside a board's tile, `key_index` lies in `[0, width*height)`. Mapping the index back to coordinates gives the same cell. |
| NeoTrellis.KeyXYRoundTrip | adafruit_neotrellis/multitrellis.py:119-120 | Every slot in `[0, width*height)` is the `key_index` of the tile cell that `key_xy` names, so together with `KeyIndexRoundTrip` the assumed `key_index` is a bijection between a board's tile and its slots. |
| NeoTrellis.ActivateKey | adafruit_neotrellis/neotrellis.py:81-87 | The board's `activate_key` forwards `edge` and `enable` to `set_event` unchanged. It forwards `_key(key)` as the key, which equals `key` for every non-negative key. |
| NeoTrellis.Decode | adafruit_neotrellis/neotrellis.py:97-99 | A decoded event always has a key number below 64 and an edge code below 4. |
| NeoTrellis.DecodeRecombines | adafruit_neotrellis/neotrellis.py:97-99 | For every response byte, `number * 4 + edge` equals the raw byte. |
| NeoTrellis.DecodeEncode | adafruit_neotrellis/neotrellis.py:97-99 | Every key number below 64 and edge code below 4, packed into a byte, decodes back to exactly that key and edge. |
| NeoTrellis.EncodeDecode | adafruit_neotrellis/neotrellis.py:97-99 | The key field `(raw >> 2) & 0x3F` and the edge field `raw & 0x3` cover the whole byte: packing them again gives the byte back. |
| NeoTrellis.Dispatch | adafruit_neotrellis/neotrellis.py:97-102 | Each response runs at most one callback. A callback runs only for a key below 64 whose entry is set, and it is that entry's handler. |
| NeoTrellis.DispatchAppend | adafruit_neotrellis/neotrellis.py:97-102 | Dispatch follows buffer order: the callbacks for `a + b` are those for `a`, then those for `b`. |
| NeoTrellis.DispatchAllRegistered | adafruit_neotrellis/neotrellis.py:97-102 | When every key has a callback, response `i` runs exactly its key's handler as the `i`-th call, with the decoded event. |
| NeoTrellis.DispatchDropsUnregistered | adafruit_neotrellis/neotrellis.py:100-102 | A response whose key has no callback runs nothing. The calls around it are unchanged. |
| NeoTrellis.DispatchFiresRegistered | adafruit_neotrellis/neotrellis.py:97-102 | A response whose key has a callback runs that callback exactly once, with the response's decoded key and edge. The run sits between the calls of the responses before it and those after it, whatever else is registered. |
| NeoTrellis.FreshBoardIsSilent | adafruit_neotrellis/neotrellis.py:78 | A freshly constructed board runs no callback, whatever it reads. |
| NeoTrellis.Sync | adafruit_neotrellis/neotrellis.py:89-102 | With a count of 0 or less nothing is read and nothing runs. With a count `n > 0`, exactly `n + 2` entries are requested, and the calls run are the dispatch of the responses in buffer order, at most one per response. |
| PrefixSums.Locate | adafruit_neotrellis/multitrellis.py:79-86 | Every offset inside the total lies in exactly the interval `[Prefix(k), Prefix(k+1))` that is returned. |
| PrefixSums.LocateUnique | adafruit_neotrellis/multitrellis.py:79-86 | A value inside interval `i` is located at `i` and at no other interval, so a cell has one owner. |
| Tiling.LayoutOffsets | adafruit_neotrellis/multitrellis.py:66-75 | `x_base` is the sum of the widths to the left in the board's grid-row, and `y_base` the sum of the heights above in its grid-column. `width` and `height` are the totals along any grid-row or grid-column. |
| Tiling.LayoutTiled | adafruit_neotrellis/multitrellis.py:74-86 | The filled table covers the whole `width` by `height` rectangle. Every cell's owner holds that cell in its tile, and every cell of every tile is owned by that tile's board. |
| Tiling.TilesDisjoint | adafruit_neotrellis/multitrellis.py:79-86 | No cell lies in the tiles of two different boards. |
| Tiling.LayoutFits | adafruit_neotrellis/multitrellis.py:71-72 | Boards that fit their 64-entry tables still fit after the offsets are assigned. |
| MultiTrellis.PlaceRow | adafruit_neotrellis/multitrellis.py:54-72 | One grid-row of the shape-checking loop either places the whole row or stops at the row's first failed assertion. Placing a board means giving it prefix-sum offsets and updating the running sums. |
| MultiTrellis.PlaceBoards | adafruit_neotrellis/multitrellis.py:51-75 | The checking loops succeed exactly on a well-shaped grid. They then return the offset boards and the totals. Otherwise they fail with the first violation in row-major order. |
| MultiTrellis.FillStepCursor | adafruit_neotrellis/multitrellis.py:82-86 | Every cell the fill writes was still empty before the write, so no board overwrites another. The written cell lies in the table and belongs to the board being written. |
| MultiTrellis.FillTile | adafruit_neotrellis/multitrellis.py:81-86 | Writing one board's tile marks exactly that tile's cells with the board's position and leaves every other cell as it was. |
| MultiTrellis.FillKeyRow | adafruit_neotrellis/multitrellis.py:83-86 | Writing key-row `ky` of a board moves the table from the fill state at the start of that row to the state at its end: that row of the board's tile now names the board, and every other cell is as it was. |
| MultiTrellis.FillKeyPads | adafruit_neotrellis/multitrellis.py:76-86 | The fill loops produce exactly the reference table, in which each cell names the board whose column and row intervals hold it. |
| MultiTrellis.Build | adafruit_neotrellis/multitrellis.py:47-86 | Construction succeeds if and only if the grid is well shaped. On success it yields the reference layout. On failure it reports the first violation the constructor meets, including the empty grid and the empty first row. |
| MultiTrellis.FirstViolationDetermined | adafruit_neotrellis/multitrellis.py:53-64 | The failing assertion is determined by the grid: two errors that are both the first violation are equal. |
| MultiTrellis.ViolationNotBefore | adafruit_neotrellis/multitrellis.py:53-64 | If every check before position `(py, px)` passes, the first violation lies at or after `(py, px)` in row-major order. |
| MultiTrellis.AccessorsReflectGrid | adafruit_neotrellis/multitrellis.py:88-108 | `len(m)` is the number of grid-rows, `cols` is the row length, and `m[i][j]` is the board placed at `(i, j)`. `width` and `height` are the total width and total height. |
| MultiTrellis.GetKeyPad | adafruit_neotrellis/multitrellis.py:110-111 | `get_key_pad(x, y)` names a board of the grid whose tile holds `(x, y)`. |
| MultiTrellis.Slot | adafruit_neotrellis/multitrellis.py:119-120 | The local index of a cell on its owning board is below 64 and inside the board's callback table. |
| MultiTrellis.RoutingInjective | adafruit_neotrellis/multitrellis.py:122-132 | Two distinct cells never share both owning board and local index. |
| MultiTrellis.SetCallback | adafruit_neotrellis/multitrellis.py:122-126 | `set_callback` changes exactly one callback slot, on the owning board. Every other board, every other slot, the table and the sizes are unchanged, and the tiling is kept. |
| MultiTrellis.SetCallbackIsCellUpdate | adafruit_neotrellis/multitrellis.py:122-126 | Seen per global cell, `set_callback(x, y, f)` gives `(x, y)` the callback `f`. Every other cell keeps its callback. |
| MultiTrellis.SetColor | adafruit_neotrellis/multitrellis.py:128-132 | `color` sets exactly one pixel, on the owning board. Every other board and every other pixel is unchanged, and the tiling is kept. |
| MultiTrellis.SetColorIsCellUpdate | adafruit_neotrellis/multitrellis.py:128-132 | Seen per global cell, `color(x, y, c)` gives `(x, y)` the colour `c`. Every other cell keeps its colour. |
| MultiTrellis.SetColorIdempotent | adafruit_neotrellis/multitrellis.py:128-132 | Setting the same colour twice leaves the state that setting it once leaves. |
| MultiTrellis.ActivateKeyAsWritten | adafruit_neotrellis/multitrellis.py:113-120 | As written, the owning board receives the cell's local index `key_index(x, y)`, `enable` in the edge position and `True` as the enable flag. That index lies in `[0, width * height)` of the owning board. |
| MultiTrellis.ActivateKey | adafruit_neotrellis/multitrellis.py:113-118 | As documented, the owning board is asked to set or clear `edge` for the cell's local index `key_index(x, y)`. That index lies in `[0, width * height)` of the owning board. |
| MultiTrellis.ActivateKeyAsWrittenDiffers | adafruit_neotrellis/multitrellis.py:113-120 | The written and documented requests agree if and only if the caller enables edge code 1. The written request ignores `edge`, and it never disables anything. |
| MultiTrellis.RowMajorIndex | adafruit_neotrellis/multitrellis.py:136-137 | The visiting order of the two nested loops has `rows * cols` entries, and entry `i` is board `(i / cols, i % cols)`. |
| MultiTrellis.RowMajorCovers | adafruit_neotrellis/multitrellis.py:136-137 | Every board `(py, px)` of the grid is visited, at step `py * cols + px`. |
| MultiTrellis.SyncRow | adafruit_neotrellis/multitrellis.py:137-140 | The inner loop of the matrix `sync` visits the boards of one grid-row left to right. It appends each board's calls in that order. |
| MultiTrellis.SyncAll | adafruit_neotrellis/multitrellis.py:134-140 | The matrix `sync` visits every board exactly once, in row-major order. Its calls are the boards' own `sync` calls, concatenated in that order. |
| MultiTrellis.EventReachesCellCallback | adafruit_neotrellis/neotrellis.py:97-102 | An event for a cell's local index, read by that cell's board, runs exactly the callback registered for that cell, once. It runs nothing when the cell has no callback. |
| MultiTrellis.SetCallbackThenEventFires | adafruit_neotrellis/multitrellis.py:122-126 | After `set_callback(x, y, h)`, an event for that cell runs `h` exactly once, with the decoded event. |

## Left out

- I2C transport: `count`, `read_keypad`, `set_event` and the `Keypad` base class are foreign library calls. The count and the read buffer are inputs, and the calls are returned as records.
- `sleep(0.0005)` in the board's `sync`: a hardware settling delay with no logical content.
- NeoPixel encoding: pixels are an abstract map to an opaque `Color`, without colour encoding and with no show or flush.
- The `rows` property: it reads `_rowa`, an attribute that is never set, so every read of it raises. It is not modelled as returning the row count.
- Negative indices in `get_key_pad`, `color`, `set_callback` and `activate_key`, and negative indices or slices in `__getitem__` (`MultiTrellis.GetItem`): Python would wrap a negative index around to the end of the list and return a list for a slice. The operations require in-range indices instead.
- The interrupt flag, the `drdy` pin, and the I2C address and pin constants: these are transport configuration.
- `NeoTrellis.KeyIndex`: the internals of the inherited `key_index`, `x_base`, `y_base`, `width` and `height` are assumed in row-major form, not verified.
- `NeoTrellis.Key`: `_key` goes through floating-point division. The model uses exact integer division, which agrees with it for keys of ordinary size.
- MultiTrellis.Build: the shape checks at lines 55, 62 and 64 are `assert` statements, and the model assumes assertions are enabled. Python run with `-O`, and MicroPython at optimisation level 1 or higher, drop them. The driver then accepts malformed grids. It builds a table with holes when heights differ along a grid-row, and it ignores the extra boards of a grid-row longer than the first. There the model reports the first violation instead (`PlaceRow`, `PlaceBoards`).
- `MultiTrellis.Build`: a failed assertion can leave earlier boards with offsets already assigned. The model returns only the error and does not model that partial change to the caller's objects.
- MultiTrellis.Build: the grid's boards are assumed to be distinct objects. Boards are values here, so the model cannot express one board object placed twice. In Python, `MultiTrellis([[t, t]])` passes every assertion, but line 71 gives the shared object the offsets of its last position. The fill then writes only that position's tile, twice, and leaves the first tile's cells `None`. For such a grid the model's result, the full reference layout with independent copies, is not what the driver builds.
- MultiTrellis.SetCallback: the claim that every other board is unchanged relies on the distinct-objects assumption of `MultiTrellis.Build`. With a shared object, two positions share one callback table.
- MultiTrellis.SetColor: like `MultiTrellis.SetCallback`, its frame relies on distinct board objects. With a shared object, two positions share one pixel strip.
- MultiTrellis.Slot: every board of the matrix is assumed to have at most 64 keys (`BoardsFit`). The driver checks nothing of the kind. On a larger board, `set_callback` raises `IndexError` for a cell whose local index is 64 or more, and `color` passes such an index unchecked to the pixel strip, whose handling of it is not part of this model. `sync` is not affected. The cell-addressed operations that index a table (`Slot`, `SetCallback`, `SetColor`, `CallbackAt`, `PixelAt`) require the assumption, so that error path is not modelled. `activate_key` indexes no table and does not require it, and the matrix `sync` requires only that every board has its 64-entry callback table (`TablesFull`).
- NeoTrellis.Dispatch: the callback table is taken as fixed for the whole `sync`, and every callback is assumed to return normally. The driver re-reads `self.callbacks[evt.number]` for each response, so a callback that calls `set_callback` changes which handler later responses, and later boards of a matrix `sync`, reach. A callback that raises stops the rest of the buffer and the remaining boards. Callbacks are opaque handler identities here and cannot do either.
- `NeoTrellis.MaxCallbacks`: the driver declares the constant but never reads it.
- `NeoTrellis.NumRows`, `NeoTrellis.NumCols`: declared like the driver's row and column constants, and, as in the driver, never used.
- NeoTrellis.NewBoard: the offsets of a fresh board are taken to be 0. They are set by the seesaw `Keypad` base class, which is not part of this model.
- `NeoTrellis.Sync`: the model does not check that `read_keypad` returns the number of entries requested. The buffer is taken as given.

## Findings

| source | as written | input that shows it | evidently intended | confidence | as-written member | corrected member |
|---|---|---|---|---|---|---|
| adafruit_neotrellis/multitrellis.py:113-120 | `pad.activate_key(pad.key_index(x, y), enable)` passes `enable` as the board's `edge` and leaves the board's `enable` at its default `True`. The caller's `edge` is dropped. | `activate_key(0, 0, 3, False)` should disable rising-edge events for cell (0, 0). It instead enables edge code 0 for that key. | `pad.activate_key(pad.key_index(x, y), edge, enable)` | not executed | MultiTrellis.ActivateKeyAsWritten (see MultiTrellis.ActivateKeyAsWrittenDiffers) | MultiTrellis.ActivateKey |

=== FILE: arith.dfy ===
/** Two facts about multiplication and Euclidean division used by the index arithmetic. */
module Arith {

  lemma MulMonotone(a: int, b: int, w: int)
    requires a <= b && w >= 0
    ensures a * w <= b * w
  {
    assert b * w - a * w == (b - a) * w;
  }

  /** Euclidean division is determined by any quotient/remainder pair with `0 <= r < w`. */
  lemma DivModUnique(a: int, w: int, q: int, r: int)
    requires w > 0 && 0 <= r < w && a == q * w + r
    ensures a / w == q && a % w == r
  {
    var q', r' := a / w, a % w;
    assert (q - q') * w == r' - r;
    if q - q' >= 1 {
      MulMonotone(1, q - q', w);
    } else if q - q' <= -1 {
      MulMonotone(q - q', -1, w);
    }
  }
}

=== FILE: common.dfy ===
/** Small wrappers and sequence facts shared by the board and matrix models. */
module Common {

  /** An optional value; `None` plays the role of Python's `None`. */
  datatype Option<T> = None | Some(value: T)

  /** The outcome of an operation that can raise: a value, or the error it raised. */
  datatype Result<T, E> = Ok(value: T) | Err(error: E)

  /** Concatenation is associative; stated once so that trace proofs need not rediscover it. */
  lemma AppendAssoc<T>(a: seq<T>, b: seq<T>, c: seq<T>)
    ensures (a + b) + c == a + (b + c)
  {
  }
}

=== FILE: multitrellis.dfy ===
/**
  The MultiTrellis driver (adafruit_neotrellis/multitrellis.py): the
  constructor's shape checks, offset assignment and cell table, the
  accessors, the routing of per-cell requests to the owning board, and the
  row-major `sync` over all boards.
 */
module MultiTrellis {
  import opened Common
  import opened Arith
  import opened PrefixSums
  import opened NeoTrellis
  import opened Tiling

  /** The ways the constructor can raise. */
  datatype BuildError =
    | EmptyGrid                           // `neotrellis_array[0]` on an empty list
    | NoColumns                           // `col_size_sum[self._cols - 1]` on an empty list
    | RowLength(row: nat)                 // a grid-row does not have `cols` boards
    | HeightMismatch(row: nat, col: nat)  // a board is not as high as the first of its grid-row
    | WidthMismatch(row: nat, col: nat)   // a board is not as wide as the first of its grid-column

  /**
    Every position strictly before `(py, px)` in row-major order passed the
    constructor's assertions.
   */
  ghost predicate PassedBefore(g: seq<seq<Board>>, py: nat, px: nat)
    requires py < |g|
  {
    && (forall qy | 0 <= qy < py :: RowPasses(g, qy))
    && (px > 0 ==> |g[py]| == |g[0]| && px <= |g[0]| && forall qx | 0 <= qx < px :: PositionOk(g, py, qx))
  }

  /**
    `e` is what the constructor raises on `g`: the violation it names is
    real, and it is the first one the row-major checks meet.
   */
  ghost predicate FirstViolation(g: seq<seq<Board>>, e: BuildError)
  {
    match e
    case EmptyGrid => |g| == 0
    case NoColumns => |g| > 0 && |g[0]| == 0
    case RowLength(py) =>
      |g| > 0 && |g[0]| > 0 && py < |g| && PassedBefore(g, py, 0) && |g[py]| != |g[0]|
    case HeightMismatch(py, px) =>
      && |g| > 0 && py < |g| && px < |g[0]| && |g[py]| == |g[0]| && PassedBefore(g, py, px)
      && g[py][px].height != g[py][0].height
    case WidthMismatch(py, px) =>
      && |g| > 0 && py < |g| && px < |g[0]| && |g[py]| == |g[0]| && PassedBefore(g, py, px)
      && g[py][px].height == g[py][0].height
      && g[py][px].width != g[0][px].width
  }

  /** The constructor's error is determined by the grid: at most one error is the first violation. */
  lemma FirstViolationDetermined(g: seq<seq<Board>>, e1: BuildError, e2: BuildError)
    requires FirstViolation(g, e1) && FirstViolation(g, e2)
    ensures e1 == e2
  {
    if e1.RowLength? || e1.HeightMismatch? || e1.WidthMismatch? {
      ViolationNotBefore(g, e2, e1.row, if e1.RowLength? then 0 else e1.col);
    }
    if e2.RowLength? || e2.HeightMismatch? || e2.WidthMismatch? {
      ViolationNotBefore(g, e1, e2.row, if e2.RowLength? then 0 else e2.col);
    }
  }

  /**
    When every check before `(py, px)` passes, a first violation cannot lie
    before `(py, px)` in row-major order.
   */
  lemma ViolationNotBefore(g: seq<seq<Board>>, e: BuildError, py: nat, px: nat)
    requires FirstViolation(g, e) && |g| > 0 && py < |g| && PassedBefore(g, py, px)
    ensures e.RowLength? ==> e.row >= py
    ensures (e.HeightMismatch? || e.WidthMismatch?) ==> e.row > py || (e.row == py && e.col >= px)
  {
    match e
    case RowLength(qy) =>
      if qy < py { PassedRow(g, py, px, qy); }
    case HeightMismatch(qy, qx) =>
      if qy < py { PassedRowPosition(g, py, px, qy, qx); }
      else if qy == py && qx < px { PassedPosition(g, py, px, qx); }
    case WidthMismatch(qy, qx) =>
      if qy < py { PassedRowPosition(g, py, px, qy, qx); }
      else if qy == py && qx < px { PassedPosition(g, py, px, qx); }
    case _ =>
  }

  lemma PassedRow(g: seq<seq<Board>>, py: nat, px: nat, qy: nat)
    requires py < |g| && PassedBefore(g, py, px) && qy < py
    ensures RowPasses(g, qy)
  {
  }

  lemma PassedRowPosition(g: seq<seq<Board>>, py: nat, px: nat, qy: nat, qx: nat)
    requires py < |g| && PassedBefore(g, py, px) && qy < py && qx < |g[0]|
    ensures qx < |g[qy]| && PositionOk(g, qy, qx)
  {
    PassedRow(g, py, px, qy);
  }

  lemma PassedPosition(g: seq<seq<Board>>, py: nat, px: nat, qx: nat)
    requires py < |g| && PassedBefore(g, py, px) && qx < px
    ensures qx < |g[py]| && qx < |g[0]| && PositionOk(g, py, qx)
  {
  }

  /**
    Cell `(x, y)`'s owner and its local coordinates come before the cursor
    `(py, px, ky, kx)` in the order the constructor's fill loops visit them.
   */
  ghost predicate FilledBefore(rh: seq<nat>, cw: seq<nat>, y: int, x: int, py: int, px: int, ky: int, kx: int)
    requires 0 <= y < Total(rh) && 0 <= x < Total(cw)
  {
    var oy, ox := Locate(rh, y), Locate(cw, x);
    var ly, lx := y - Prefix(rh, oy), x - Prefix(cw, ox);
    oy < py || (oy == py && (ox < px || (ox == px && (ly < ky || (ly == ky && lx < kx)))))
  }

  /** The content of cell `(x, y)` of the table when the fill loops stand at the cursor. */
  ghost function FillState(rh: seq<nat>, cw: seq<nat>, y: int, x: int, py: int, px: int, ky: int, kx: int): Option<Pos>
    requires 0 <= y < Total(rh) && 0 <= x < Total(cw)
  {
    if FilledBefore(rh, cw, y, x, py, px, ky, kx) then Some(Pos(Locate(rh, y), Locate(cw, x))) else None
  }

  /**
    Writing the cursor's cell: the cell lies in the table, has not been
    written before (no board overwrites another), belongs to the cursor's
    board, and counts as filled once the cursor moves on.
   */
  lemma FillStepCursor(rh: seq<nat>, cw: seq<nat>, py: nat, px: nat, ky: nat, kx: nat)
    requires py < |rh| && px < |cw| && ky < rh[py] && kx < cw[px]
    ensures Prefix(rh, py) + ky < Total(rh) && Prefix(cw, px) + kx < Total(cw)
    ensures FillState(rh, cw, Prefix(rh, py) + ky, Prefix(cw, px) + kx, py, px, ky, kx) == None
    ensures FillState(rh, cw, Prefix(rh, py) + ky, Prefix(cw, px) + kx, py, px, ky, kx + 1) == Some(Pos(py, px))
  {
    var y0, x0 := Prefix(rh, py) + ky, Prefix(cw, px) + kx;
    CursorOwner(rh, py, ky);
    CursorOwner(cw, px, kx);
  }

  /** The cursor's cell along one axis lies in the table and is owned by the cursor's board at local offset `k`. */
  lemma CursorOwner(s: seq<nat>, i: nat, k: nat)
    requires i < |s| && k < s[i]
    ensures Prefix(s, i) + k < Total(s)
    ensures Locate(s, Prefix(s, i) + k) == i
    ensures Prefix(s, i) + k - Prefix(s, Locate(s, Prefix(s, i) + k)) == k
  {
    LocateUnique(s, Prefix(s, i) + k, i);
  }

  /** Moving the cursor one step changes the state of no cell other than the cursor's. */
  lemma FillStepRest(rh: seq<nat>, cw: seq<nat>, py: nat, px: nat, ky: nat, kx: nat)
    requires py < |rh| && px < |cw|
    ensures forall y, x | 0 <= y < Total(rh) && 0 <= x < Total(cw) &&
      (y != Prefix(rh, py) + ky || x != Prefix(cw, px) + kx) ::
      FillState(rh, cw, y, x, py, px, ky, kx + 1) == FillState(rh, cw, y, x, py, px, ky, kx)
  {
    forall y, x | 0 <= y < Total(rh) && 0 <= x < Total(cw) &&
      (y != Prefix(rh, py) + ky || x != Prefix(cw, px) + kx)
      ensures FillState(rh, cw, y, x, py, px, ky, kx + 1) == FillState(rh, cw, y, x, py, px, ky, kx)
    {
      FillStepOther(rh, cw, py, px, ky, kx, y, x);
    }
  }

  lemma FillStepOther(rh: seq<nat>, cw: seq<nat>, py: nat, px: nat, ky: nat, kx: nat, y: int, x: int)
    requires py < |rh| && px < |cw|
    requires 0 <= y < Total(rh) && 0 <= x < Total(cw)
    requires y != Prefix(rh, py) + ky || x != Prefix(cw, px) + kx
    ensures FilledBefore(rh, cw, y, x, py, px, ky, kx + 1) == FilledBefore(rh, cw, y, x, py, px, ky, kx)
  {
    var oy, ox := Locate(rh, y), Locate(cw, x);
    if oy == py && ox == px {
      assert y - Prefix(rh, oy) != ky || x - Prefix(cw, ox) != kx;
    }
  }

  /** The cursor positions the nested loops skip over hold no cell. */
  lemma FillCarry(rh: seq<nat>, cw: seq<nat>, py: nat, px: nat, ky: nat)
    requires py < |rh| && px < |cw|
    ensures forall y, x | 0 <= y < Total(rh) && 0 <= x < Total(cw) ::
      FillState(rh, cw, y, x, py, px, ky, cw[px]) == FillState(rh, cw, y, x, py, px, ky + 1, 0)
    ensures forall y, x | 0 <= y < Total(rh) && 0 <= x < Total(cw) ::
      FillState(rh, cw, y, x, py, px, rh[py], 0) == FillState(rh, cw, y, x, py, px + 1, 0, 0)
    ensures forall y, x | 0 <= y < Total(rh) && 0 <= x < Total(cw) ::
      FillState(rh, cw, y, x, py, |cw|, 0, 0) == FillState(rh, cw, y, x, py + 1, 0, 0, 0)
  {
  }

  /**
    The state of the checking loop of `MultiTrellis.__init__` once grid-rows
    `[0, py)` are done: they passed their assertions, the column-width sums
    and row-height sums so far are prefix sums, those rows' boards carry
    their offsets, and later rows are untouched.
   */
  ghost predicate PlacedUpTo(g: seq<seq<Board>>, py: nat, colSizeSum: seq<nat>, rowSizeSum: seq<nat>, trelli: seq<seq<Board>>)
    requires |g| > 0 && py <= |g|
  {
    && |colSizeSum| == |g[0]| && |rowSizeSum| == |g|
    && (forall qy | 0 <= qy < py :: RowPasses(g, qy))
    && (forall qy | 0 <= qy < py :: |g[qy]| == |g[0]|)
    && (py > 0 ==> forall qx | 0 <= qx < |g[0]| :: colSizeSum[qx] == Prefix(ColWidths(g), qx + 1))
    && (forall qy | 0 <= qy < py :: rowSizeSum[qy] == Prefix(RowHeights(g), qy + 1))
    && |trelli| == |g|
    && (forall qy | 0 <= qy < |g| :: |trelli[qy]| == |g[qy]|)
    && (forall qy, qx | 0 <= qy < py && 0 <= qx < |g[0]| :: trelli[qy][qx] == Placed(g, qy, qx))
    && (forall qy, qx | py <= qy < |g| && 0 <= qx < |g[qy]| :: trelli[qy][qx] == g[qy][qx])
  }

  /**
    The state of the inner checking loop at position `(py, px)`: the
    earlier grid-rows and the first `px` positions of this one have passed
    and been placed, the running sums are the prefix sums so far, and the
    rest of the grid is untouched.
   */
  ghost predicate RowInv(g: seq<seq<Board>>, py: nat, px: nat, colSizeSum: seq<nat>, rowSizeSum: seq<nat>, trelli: seq<seq<Board>>)
    requires |g| > 0 && py < |g| && px <= |g[0]|
  {
    RowChecked(g, py, px) && RowSums(g, py, px, colSizeSum, rowSizeSum) && RowPlaced(g, py, px, trelli)
  }

  /** The assertions at every position before `(py, px)` have passed. */
  ghost predicate RowChecked(g: seq<seq<Board>>, py: nat, px: nat)
    requires |g| > 0 && py < |g| && px <= |g[0]|
  {
    && (forall qy | 0 <= qy < py :: RowPasses(g, qy))
    && (forall qy | 0 <= qy < py :: |g[qy]| == |g[0]|)
    && (px > 0 ==> |g[py]| == |g[0]|)
    && (px > 0 ==> forall qx | 0 <= qx < px :: PositionOk(g, py, qx))
  }

  /** The running sums hold the prefix sums of every size seen so far. */
  ghost predicate RowSums(g: seq<seq<Board>>, py: nat, px: nat, colSizeSum: seq<nat>, rowSizeSum: seq<nat>)
    requires |g| > 0 && py < |g| && px <= |g[0]|
  {
    && |colSizeSum| == |g[0]| && |rowSizeSum| == |g|
    && (forall qx | 0 <= qx < |g[0]| :: (py > 0 || qx < px) ==> colSizeSum[qx] == Prefix(ColWidths(g), qx + 1))
    && (forall qy | 0 <= qy < py :: rowSizeSum[qy] == Prefix(RowHeights(g), qy + 1))
    && (px > 0 ==> rowSizeSum[py] == Prefix(RowHeights(g), py + 1))
  }

  /** The boards before `(py, px)` carry their offsets; the others are untouched. */
  ghost predicate RowPlaced(g: seq<seq<Board>>, py: nat, px: nat, trelli: seq<seq<Board>>)
    requires |g| > 0 && py < |g| && px <= |g[0]| && RowChecked(g, py, px)
  {
    && |trelli| == |g|
    && (forall qy | 0 <= qy < |g| :: |trelli[qy]| == |g[qy]|)
    && (forall qy, qx | 0 <= qy < py && 0 <= qx < |g[0]| :: trelli[qy][qx] == Placed(g, qy, qx))
    && (px > 0 ==> forall qx | 0 <= qx < px :: trelli[py][qx] == Placed(g, py, qx))
    && (forall qx | px <= qx < |g[py]| :: trelli[py][qx] == g[py][qx])
    && (forall qy, qx | py < qy < |g| && 0 <= qx < |g[qy]| :: trelli[qy][qx] == g[qy][qx])
  }

  lemma RowInvStart(g: seq<seq<Board>>, py: nat, colSizeSum: seq<nat>, rowSizeSum: seq<nat>, trelli: seq<seq<Board>>)
    requires |g| > 0 && py < |g| && PlacedUpTo(g, py, colSizeSum, rowSizeSum, trelli)
    ensures RowInv(g, py, 0, colSizeSum, rowSizeSum, trelli)
  {
  }

  /** When the whole row has passed, the state is the one before the next row. */
  lemma RowInvEnd(g: seq<seq<Board>>, py: nat, colSizeSum: seq<nat>, rowSizeSum: seq<nat>, trelli: seq<seq<Board>>)
    requires |g| > 0 && |g[0]| > 0 && py < |g| && RowInv(g, py, |g[0]|, colSizeSum, rowSizeSum, trelli)
    ensures PlacedUpTo(g, py + 1, colSizeSum, rowSizeSum, trelli)
  {
    assert RowPasses(g, py);
  }

  /** A state of the loop is reached only when every check before it passed. */
  lemma RowInvPassed(g: seq<seq<Board>>, py: nat, px: nat, colSizeSum: seq<nat>, rowSizeSum: seq<nat>, trelli: seq<seq<Board>>)
    requires |g| > 0 && py < |g| && px <= |g[0]| && RowInv(g, py, px, colSizeSum, rowSizeSum, trelli)
    ensures PassedBefore(g, py, px)
  {
  }

  /** The offsets a passing position `(py, px)` receives are the prefix sums before it. */
  lemma RowInvBases(g: seq<seq<Board>>, py: nat, px: nat, colSizeSum: seq<nat>, rowSizeSum: seq<nat>, trelli: seq<seq<Board>>)
    requires |g| > 0 && py < |g| && px < |g[0]| && |g[py]| == |g[0]| && PositionOk(g, py, px)
    requires RowInv(g, py, px, colSizeSum, rowSizeSum, trelli)
    ensures (if py > 0 then rowSizeSum[py - 1] else 0) == Prefix(RowHeights(g), py)
    ensures (if px > 0 then colSizeSum[px - 1] else 0) == Prefix(ColWidths(g), px)
    ensures g[py][px].width == ColWidths(g)[px] && g[py][px].height == RowHeights(g)[py]
  {
  }

  /**
    One checked position `(py, px)` that passes: storing the running sums
    and the board with its offsets keeps the loop state.
   */
  lemma RowInvStep(g: seq<seq<Board>>, py: nat, px: nat, colSizeSum: seq<nat>, rowSizeSum: seq<nat>, trelli: seq<seq<Board>>,
                   xBase: nat, yBase: nat)
    requires |g| > 0 && py < |g| && px < |g[0]| && |g[py]| == |g[0]| && PositionOk(g, py, px)
    requires RowInv(g, py, px, colSizeSum, rowSizeSum, trelli)
    requires yBase == Prefix(RowHeights(g), py) && xBase == Prefix(ColWidths(g), px)
    ensures RowInv(g, py, px + 1, colSizeSum[px := g[py][px].width + xBase], rowSizeSum[py := g[py][px].height + yBase],
                   trelli[py := trelli[py][px := g[py][px].(xBase := xBase, yBase := yBase)]])
  {
    assert RowChecked(g, py, px + 1) by { RowCheckedStep(g, py, px); }
    RowSumsStep(g, py, px, colSizeSum, rowSizeSum, xBase, yBase);
    RowPlacedStep(g, py, px, trelli, xBase, yBase);
  }

  lemma RowCheckedStep(g: seq<seq<Board>>, py: nat, px: nat)
    requires |g| > 0 && py < |g| && px < |g[0]| && |g[py]| == |g[0]| && PositionOk(g, py, px)
    requires RowChecked(g, py, px)
    ensures RowChecked(g, py, px + 1)
  {
  }

  lemma RowSumsStep(g: seq<seq<Board>>, py: nat, px: nat, colSizeSum: seq<nat>, rowSizeSum: seq<nat>, xBase: nat, yBase: nat)
    requires |g| > 0 && py < |g| && px < |g[0]| && |g[py]| == |g[0]| && PositionOk(g, py, px)
    requires RowSums(g, py, px, colSizeSum, rowSizeSum)
    requires yBase == Prefix(RowHeights(g), py) && xBase == Prefix(ColWidths(g), px)
    ensures RowSums(g, py, px + 1, colSizeSum[px := g[py][px].width + xBase], rowSizeSum[py := g[py][px].height + yBase])
  {
    assert g[py][px].width == ColWidths(g)[px] && g[py][px].height == RowHeights(g)[py];
  }

  lemma RowPlacedStep(g: seq<seq<Board>>, py: nat, px: nat, trelli: seq<seq<Board>>, xBase: nat, yBase: nat)
    requires |g| > 0 && py < |g| && px < |g[0]| && |g[py]| == |g[0]| && PositionOk(g, py, px)
    requires RowChecked(g, py, px) && RowPlaced(g, py, px, trelli)
    requires yBase == Prefix(RowHeights(g), py) && xBase == Prefix(ColWidths(g), px)
    ensures RowChecked(g, py, px + 1)
    ensures RowPlaced(g, py, px + 1, trelli[py := trelli[py][px := g[py][px].(xBase := xBase, yBase := yBase)]])
  {
    RowCheckedStep(g, py, px);
    assert g[py][px].(xBase := xBase, yBase := yBase) == Placed(g, py, px);
  }

  lemma RowLengthViolation(g: seq<seq<Board>>, py: nat)
    requires |g| > 0 && |g[0]| > 0 && py < |g| && PassedBefore(g, py, 0) && |g[py]| != |g[0]|
    ensures FirstViolation(g, RowLength(py)) && !Shaped(g)
  {
  }

  lemma PositionViolation(g: seq<seq<Board>>, py: nat, px: nat)
    requires |g| > 0 && py < |g| && px < |g[0]| && |g[py]| == |g[0]| && PassedBefore(g, py, px)
    requires !PositionOk(g, py, px)
    ensures g[py][px].height != g[py][0].height ==> FirstViolation(g, HeightMismatch(py, px))
    ensures g[py][px].height == g[py][0].height ==> FirstViolation(g, WidthMismatch(py, px))
    ensures !Shaped(g)
  {
  }

  /**
    One pass of the inner checking loop of `MultiTrellis.__init__` over
    grid-row `py`: either some position of the row fails an assertion, and
    the first such failure is reported, or the whole row passes and gets its
    offsets.
   */
  method PlaceRow(g: seq<seq<Board>>, py: nat, colSizeSum0: seq<nat>, rowSizeSum0: seq<nat>, trelli0: seq<seq<Board>>)
    returns (err: Option<BuildError>, colSizeSum: seq<nat>, rowSizeSum: seq<nat>, trelli: seq<seq<Board>>)
    requires |g| > 0 && |g[0]| > 0 && py < |g|
    requires PlacedUpTo(g, py, colSizeSum0, rowSizeSum0, trelli0)
    ensures err.Some? ==> FirstViolation(g, err.value) && !Shaped(g)
    ensures err.None? ==> PlacedUpTo(g, py + 1, colSizeSum, rowSizeSum, trelli)
  {
    var cols := |g[0]|;
    colSizeSum, rowSizeSum, trelli := colSizeSum0, rowSizeSum0, trelli0;
    RowInvStart(g, py, colSizeSum, rowSizeSum, trelli);
    var px := 0;
    while px < cols
      invariant 0 <= px <= cols
      invariant RowInv(g, py, px, colSizeSum, rowSizeSum, trelli)
    {
      RowInvPassed(g, py, px, colSizeSum, rowSizeSum, trelli);
      if |g[py]| != cols {
        RowLengthViolation(g, py);
        return Some(RowLength(py)), colSizeSum, rowSizeSum, trelli;
      }
      var tr0, tc0, t := g[0][px], g[py][0], g[py][px];
      if t.height != tc0.height {
        PositionViolation(g, py, px);
        return Some(HeightMismatch(py, px)), colSizeSum, rowSizeSum, trelli;
      }
      if t.width != tr0.width {
        PositionViolation(g, py, px);
        return Some(WidthMismatch(py, px)), colSizeSum, rowSizeSum, trelli;
      }
      var yBase := if py > 0 then rowSizeSum[py - 1] else 0;
      var xBase := if px > 0 then colSizeSum[px - 1] else 0;
      RowInvBases(g, py, px, colSizeSum, rowSizeSum, trelli);
      RowInvStep(g, py, px, colSizeSum, rowSizeSum, trelli, xBase, yBase);
      rowSizeSum := rowSizeSum[py := t.height + yBase];
      colSizeSum := colSizeSum[px := t.width + xBase];
      trelli := trelli[py := trelli[py][px := t.(xBase := xBase, yBase := yBase)]];
      px := px + 1;
    }
    RowInvEnd(g, py, colSizeSum, rowSizeSum, trelli);
    err := None;
  }

  /**
    The checking half of `MultiTrellis.__init__` (non-empty grid): checks the
    grid's shape position by position in row-major order and assigns each
    board its offsets from running column-width and row-height sums; the
    extent is read from the last sums. It succeeds exactly on a well-shaped
    grid, with the reference offsets and extent, and otherwise raises the
    first violation the checks meet.
   */
  method PlaceBoards(g: seq<seq<Board>>) returns (r: Result<(seq<seq<Board>>, nat, nat), BuildError>)
    requires |g| > 0 && |g[0]| > 0
    ensures r.Ok? <==> Shaped(g)
    ensures r.Ok? ==> r.value.0 == Layout(g).trelli
    ensures r.Ok? ==> r.value.1 == Layout(g).width && r.value.2 == Layout(g).height
    ensures r.Err? ==> FirstViolation(g, r.error)
  {
    var rows, cols := |g|, |g[0]|;
    var colSizeSum: seq<nat> := seq(cols, _ => 0);
    var rowSizeSum: seq<nat> := seq(rows, _ => 0);
    var trelli := g;
    var py := 0;
    while py < rows
      invariant 0 <= py <= rows
      invariant PlacedUpTo(g, py, colSizeSum, rowSizeSum, trelli)
    {
      var err;
      err, colSizeSum, rowSizeSum, trelli := PlaceRow(g, py, colSizeSum, rowSizeSum, trelli);
      if err.Some? {
        return Err(err.value);
      }
      py := py + 1;
    }
    assert Shaped(g) by {
      forall qy, qx | 0 <= qy < rows && 0 <= qx < cols ensures PositionOk(g, qy, qx) {
        assert RowPasses(g, qy);
      }
    }
    assert trelli == Layout(g).trelli by {
      forall qy | 0 <= qy < rows ensures trelli[qy] == Layout(g).trelli[qy] {
        assert |trelli[qy]| == cols;
      }
    }
    return Ok((trelli, colSizeSum[cols - 1], rowSizeSum[rows - 1]));
  }

  /** The table is `height` by `width`. */
  predicate TableShape(keyPads: seq<seq<Option<Pos>>>, width: nat, height: nat)
  {
    |keyPads| == height && forall y | 0 <= y < height :: |keyPads[y]| == width
  }

  /**
    The two innermost fill loops of `MultiTrellis.__init__` for the board at
    `(py, px)`: every cell of its tile is written with the board, which moves
    the fill cursor past the board and changes no other cell.
   */
  method FillTile(ghost g: seq<seq<Board>>, t: Board, py: nat, px: nat, keyPads0: seq<seq<Option<Pos>>>)
    returns (keyPads: seq<seq<Option<Pos>>>)
    requires Shaped(g) && py < |g| && px < |g[0]| && t == Layout(g).trelli[py][px]
    requires TableShape(keyPads0, Layout(g).width, Layout(g).height)
    requires forall y, x | 0 <= y < Layout(g).height && 0 <= x < Layout(g).width ::
      keyPads0[y][x] == FillState(RowHeights(g), ColWidths(g), y, x, py, px, 0, 0)
    ensures TableShape(keyPads, Layout(g).width, Layout(g).height)
    ensures forall y, x | 0 <= y < Layout(g).height && 0 <= x < Layout(g).width ::
      keyPads[y][x] == FillState(RowHeights(g), ColWidths(g), y, x, py, px + 1, 0, 0)
  {
    ghost var cw, rh := ColWidths(g), RowHeights(g);
    ghost var width, height := Total(cw), Total(rh);
    assert PositionOk(g, py, px);
    assert t == Placed(g, py, px);
    keyPads := keyPads0;
    var ky := 0;
    while ky < t.height
      invariant 0 <= ky <= t.height
      invariant TableShape(keyPads, width, height)
      invariant forall y, x | 0 <= y < height && 0 <= x < width ::
        keyPads[y][x] == FillState(rh, cw, y, x, py, px, ky, 0)
    {
      keyPads := FillKeyRow(g, t, py, px, ky, keyPads);
      FillCarry(rh, cw, py, px, ky);
      ky := ky + 1;
    }
    FillCarry(rh, cw, py, px, 0);
  }

  /** The innermost loop of the fill: key-row `ky` of one board, left to right. */
  method FillKeyRow(ghost g: seq<seq<Board>>, t: Board, py: nat, px: nat, ky: nat, keyPads0: seq<seq<Option<Pos>>>)
    returns (keyPads: seq<seq<Option<Pos>>>)
    requires Shaped(g) && py < |g| && px < |g[0]| && t == Placed(g, py, px) && ky < t.height
    requires TableShape(keyPads0, Layout(g).width, Layout(g).height)
    requires forall y, x | 0 <= y < Layout(g).height && 0 <= x < Layout(g).width ::
      keyPads0[y][x] == FillState(RowHeights(g), ColWidths(g), y, x, py, px, ky, 0)
    ensures TableShape(keyPads, Layout(g).width, Layout(g).height)
    ensures forall y, x | 0 <= y < Layout(g).height && 0 <= x < Layout(g).width ::
      keyPads[y][x] == FillState(RowHeights(g), ColWidths(g), y, x, py, px, ky, t.width)
  {
    ghost var cw, rh := ColWidths(g), RowHeights(g);
    ghost var width, height := Total(cw), Total(rh);
    assert PositionOk(g, py, px);
    assert t.width == cw[px] && t.height == rh[py] && t.xBase == Prefix(cw, px) && t.yBase == Prefix(rh, py);
    keyPads := keyPads0;
    var kx := 0;
    while kx < t.width
      invariant 0 <= kx <= t.width
      invariant TableShape(keyPads, width, height)
      invariant forall y, x | 0 <= y < height && 0 <= x < width ::
        keyPads[y][x] == FillState(rh, cw, y, x, py, px, ky, kx)
    {
      var x := t.xBase + kx;
      var y := t.yBase + ky;
      FillWrite(rh, cw, py, px, ky, kx, keyPads);
      keyPads := keyPads[y := keyPads[y][x := Some(Pos(py, px))]];
      kx := kx + 1;
    }
  }

  /**
    One write of the fill: the cursor's cell is still empty, and after the
    write the table is the fill state with the cursor one step further on.
   */
  lemma FillWrite(rh: seq<nat>, cw: seq<nat>, py: nat, px: nat, ky: nat, kx: nat, keyPads: seq<seq<Option<Pos>>>)
    requires py < |rh| && px < |cw| && ky < rh[py] && kx < cw[px]
    requires TableShape(keyPads, Total(cw), Total(rh))
    requires forall y, x | 0 <= y < Total(rh) && 0 <= x < Total(cw) ::
      keyPads[y][x] == FillState(rh, cw, y, x, py, px, ky, kx)
    ensures Prefix(rh, py) + ky < Total(rh) && Prefix(cw, px) + kx < Total(cw)
    ensures keyPads[Prefix(rh, py) + ky][Prefix(cw, px) + kx] == None
    ensures var y0, x0 := Prefix(rh, py) + ky, Prefix(cw, px) + kx;
      var next := keyPads[y0 := keyPads[y0][x0 := Some(Pos(py, px))]];
      TableShape(next, Total(cw), Total(rh)) &&
      forall y, x | 0 <= y < Total(rh) && 0 <= x < Total(cw) ::
        next[y][x] == FillState(rh, cw, y, x, py, px, ky, kx + 1)
  {
    var y0, x0 := Prefix(rh, py) + ky, Prefix(cw, px) + kx;
    FillStepCursor(rh, cw, py, px, ky, kx);
    FillStepRest(rh, cw, py, px, ky, kx);
    var next := keyPads[y0 := keyPads[y0][x0 := Some(Pos(py, px))]];
    forall y, x | 0 <= y < Total(rh) && 0 <= x < Total(cw)
      ensures next[y][x] == FillState(rh, cw, y, x, py, px, ky, kx + 1)
    {
      if y != y0 || x != x0 {
        assert next[y][x] == keyPads[y][x];
      }
    }
  }

  /**
    The filling half of `MultiTrellis.__init__`: for every board in row-major
    order and every local cell of it, writes the board into the table cell
    at its offset plus the local coordinates. Starting from an all-empty
    `height` by `width` table this yields exactly the reference table.
   */
  method FillKeyPads(ghost g: seq<seq<Board>>, trelli: seq<seq<Board>>, width: nat, height: nat)
    returns (keyPads: seq<seq<Option<Pos>>>)
    requires Shaped(g)
    requires trelli == Layout(g).trelli && width == Layout(g).width && height == Layout(g).height
    ensures keyPads == Layout(g).keyPads
  {
    ghost var cw, rh := ColWidths(g), RowHeights(g);
    var rows, cols := |trelli|, |trelli[0]|;
    keyPads := seq(height, _ => seq(width, _ => None));
    var py := 0;
    while py < rows
      invariant 0 <= py <= rows
      invariant TableShape(keyPads, width, height)
      invariant forall y, x | 0 <= y < height && 0 <= x < width ::
        keyPads[y][x] == FillState(rh, cw, y, x, py, 0, 0, 0)
    {
      var px := 0;
      while px < cols
        invariant 0 <= px <= cols
        invariant TableShape(keyPads, width, height)
        invariant forall y, x | 0 <= y < height && 0 <= x < width ::
          keyPads[y][x] == FillState(rh, cw, y, x, py, px, 0, 0)
      {
        keyPads := FillTile(g, trelli[py][px], py, px, keyPads);
        px := px + 1;
      }
      FillCarry(rh, cw, py, 0, 0);
      py := py + 1;
    }
    forall y | 0 <= y < height ensures keyPads[y] == Layout(g).keyPads[y] {
    }
  }

  /**
    `MultiTrellis.__init__`: succeeds exactly on a well-shaped grid and then
    builds the reference layout; otherwise raises the first violation the
    constructor meets.
   */
  method Build(g: seq<seq<Board>>) returns (r: Result<Trellis, BuildError>)
    ensures r.Ok? <==> Shaped(g)
    ensures r.Ok? ==> r.value == Layout(g)
    ensures r.Err? ==> FirstViolation(g, r.error)
  {
    if |g| == 0 {
      return Err(EmptyGrid);
    }
    if |g[0]| == 0 {
      // The checking loops do nothing for zero columns; reading the last
      // column sum then indexes an empty list.
      return Err(NoColumns);
    }
    var placed := PlaceBoards(g);
    if placed.Err? {
      return Err(placed.error);
    }
    var (trelli, width, height) := placed.value;
    var keyPads := FillKeyPads(g, trelli, width, height);
    return Ok(Trellis(trelli, |g|, |g[0]|, width, height, keyPads));
  }

  /** The `width` property. */
  function Width(t: Trellis): nat { t.width }

  /** The `height` property. */
  function Height(t: Trellis): nat { t.height }

  /** The `cols` property. */
  function Cols(t: Trellis): nat { t.cols }

  /** `len(m)`: the number of grid-rows. */
  function Len(t: Trellis): nat { t.rows }

  /** `m[i]`: grid-row `i`. */
  function GetItem(t: Trellis, i: nat): seq<Board>
    requires i < |t.trelli|
  {
    t.trelli[i]
  }

  /** The two boards are the same board object, whatever offsets each carries. */
  predicate SameBoard(a: Board, b: Board)
  {
    a.(xBase := 0, yBase := 0) == b.(xBase := 0, yBase := 0)
  }

  /**
    On a constructed matrix the accessors report the grid: `len(m)` is the
    number of grid-rows, `m[i][j]` is the board the caller placed at
    `(i, j)`, `cols` is the row length, and `width`/`height` are the totals
    of the column widths and row heights.
   */
  lemma AccessorsReflectGrid(g: seq<seq<Board>>)
    requires Shaped(g)
    ensures Len(Layout(g)) == |g| && Cols(Layout(g)) == |g[0]|
    ensures forall i | 0 <= i < |g| :: |GetItem(Layout(g), i)| == |g[i]|
    ensures forall i, j | 0 <= i < |g| && 0 <= j < |g[i]| :: SameBoard(GetItem(Layout(g), i)[j], g[i][j])
    ensures Width(Layout(g)) == Total(RowWidths(g, 0))
    ensures Height(Layout(g)) == Total(ColHeights(g, 0))
  {
    LayoutOffsets(g);
  }

  /** `get_key_pad(x, y)`: the board that owns cell `(x, y)`, whose tile holds the cell. */
  function GetKeyPad(t: Trellis, x: int, y: int): (p: Pos)
    requires Tiled(t) && 0 <= x < t.width && 0 <= y < t.height
    ensures p.row < t.rows && p.col < t.cols
    ensures InTile(t.trelli[p.row][p.col], x, y)
  {
    t.keyPads[y][x].value
  }

  /** The board at grid position `p`. */
  function BoardAt(t: Trellis, p: Pos): Board
    requires Tiled(t) && p.row < t.rows && p.col < t.cols
  {
    t.trelli[p.row][p.col]
  }

  /** The local slot `key_index(x, y)` of cell `(x, y)` on its owning board. */
  function Slot(t: Trellis, x: int, y: int): (k: nat)
    requires Tiled(t) && BoardsFit(t) && 0 <= x < t.width && 0 <= y < t.height
    ensures k == KeyIndex(BoardAt(t, GetKeyPad(t, x, y)), x, y)
    ensures k < NumKeys && k < |BoardAt(t, GetKeyPad(t, x, y)).callbacks|
  {
    var p := GetKeyPad(t, x, y);
    var b := BoardAt(t, p);
    KeyIndexRoundTrip(b, x, y);
    assert Fits(b);
    KeyIndex(b, x, y)
  }

  /**
    Routing is injective: two distinct cells never share both owning board
    and local slot, so a write through one cell cannot land on another's.
   */
  lemma RoutingInjective(t: Trellis, x: int, y: int, x': int, y': int)
    requires Tiled(t) && BoardsFit(t)
    requires 0 <= x < t.width && 0 <= y < t.height && 0 <= x' < t.width && 0 <= y' < t.height
    requires GetKeyPad(t, x, y) == GetKeyPad(t, x', y') && Slot(t, x, y) == Slot(t, x', y')
    ensures x == x' && y == y'
  {
    var b := BoardAt(t, GetKeyPad(t, x, y));
    KeyIndexRoundTrip(b, x, y);
    KeyIndexRoundTrip(b, x', y');
  }

  /** Only the board at `p` differs between the two grids, and it differs as `b` says. */
  ghost predicate OnlyBoardChanged(t: Trellis, t': Trellis, p: Pos, b: Board)
    requires Tiled(t) && p.row < t.rows && p.col < t.cols
  {
    && t'.rows == t.rows && t'.cols == t.cols && t'.width == t.width && t'.height == t.height
    && t'.keyPads == t.keyPads
    && |t'.trelli| == |t.trelli|
    && (forall py | 0 <= py < t.rows :: |t'.trelli[py]| == t.cols)
    && t'.trelli[p.row][p.col] == b
    && (forall py, px | 0 <= py < t.rows && 0 <= px < t.cols && Pos(py, px) != p ::
          t'.trelli[py][px] == t.trelli[py][px])
  }

  /** Replacing one board by one with the same geometry keeps the tiling and the fit. */
  lemma ReplaceKeepsTiling(t: Trellis, p: Pos, b: Board)
    requires Tiled(t) && BoardsFit(t) && p.row < t.rows && p.col < t.cols
    requires b.width == BoardAt(t, p).width && b.height == BoardAt(t, p).height
    requires b.xBase == BoardAt(t, p).xBase && b.yBase == BoardAt(t, p).yBase
    requires |b.callbacks| == NumKeys
    ensures var t' := t.(trelli := t.trelli[p.row := t.trelli[p.row][p.col := b]]);
      Tiled(t') && BoardsFit(t') && OnlyBoardChanged(t, t', p, b)
  {
    var t' := t.(trelli := t.trelli[p.row := t.trelli[p.row][p.col := b]]);
    assert OnlyBoardChanged(t, t', p, b);
    forall py, px | 0 <= py < t.rows && 0 <= px < t.cols
      ensures SameTile(t'.trelli[py][px], t.trelli[py][px]) && Fits(t'.trelli[py][px])
    {
      assert Fits(t.trelli[py][px]);
    }
    SameTilesTiled(t, t');
  }

  /** Two boards that cover the same cells. */
  predicate SameTile(a: Board, b: Board)
  {
    a.xBase == b.xBase && a.yBase == b.yBase && a.width == b.width && a.height == b.height
  }

  /** Replacing boards by ones covering the same cells keeps a tiling. */
  lemma SameTilesTiled(t: Trellis, t': Trellis)
    requires Tiled(t)
    requires t'.rows == t.rows && t'.cols == t.cols && t'.width == t.width && t'.height == t.height
    requires t'.keyPads == t.keyPads
    requires |t'.trelli| == t.rows && forall py | 0 <= py < t.rows :: |t'.trelli[py]| == t.cols
    requires forall py, px | 0 <= py < t.rows && 0 <= px < t.cols :: SameTile(t'.trelli[py][px], t.trelli[py][px])
    ensures Tiled(t')
  {
    forall y, x | 0 <= y < t.height && 0 <= x < t.width
      ensures InTile(t'.trelli[t.keyPads[y][x].value.row][t.keyPads[y][x].value.col], x, y)
    {
      var o := t.keyPads[y][x].value;
      assert SameTile(t'.trelli[o.row][o.col], t.trelli[o.row][o.col]);
    }
    forall py, px, x, y {:trigger InTile(t'.trelli[py][px], x, y)}
      | 0 <= py < t.rows && 0 <= px < t.cols && InTile(t'.trelli[py][px], x, y)
      ensures 0 <= x < t'.width && 0 <= y < t'.height && t'.keyPads[y][x] == Some(Pos(py, px))
    {
      assert SameTile(t'.trelli[py][px], t.trelli[py][px]);
      assert InTile(t.trelli[py][px], x, y);
    }
  }

  /**
    `set_callback(x, y, f)`: stores `f` (or clears the entry, for `None`) in
    the owning board's callback table at the cell's local slot. No other
    board and no other slot changes, and the tiling is kept.
   */
  function SetCallback(t: Trellis, x: int, y: int, f: Option<Handler>): (t': Trellis)
    requires Tiled(t) && BoardsFit(t) && 0 <= x < t.width && 0 <= y < t.height
    ensures Tiled(t') && BoardsFit(t') && t'.rows == t.rows && t'.cols == t.cols
    ensures var p, b := GetKeyPad(t, x, y), BoardAt(t, GetKeyPad(t, x, y));
      && OnlyBoardChanged(t, t', p, b.(callbacks := t'.trelli[p.row][p.col].callbacks))
      && |t'.trelli[p.row][p.col].callbacks| == NumKeys
      && t'.trelli[p.row][p.col].callbacks[Slot(t, x, y)] == f
      && (forall k | 0 <= k < NumKeys && k != Slot(t, x, y) ::
            t'.trelli[p.row][p.col].callbacks[k] == b.callbacks[k])
  {
    var p := GetKeyPad(t, x, y);
    var b := BoardAt(t, p);
    var nb := b.(callbacks := b.callbacks[Slot(t, x, y) := f]);
    ReplaceKeepsTiling(t, p, nb);
    t.(trelli := t.trelli[p.row := t.trelli[p.row][p.col := nb]])
  }

  /**
    `color(x, y, c)`: sets colour `c` for the owning board's pixel at the
    cell's local slot. No other board and no other pixel changes, and the
    tiling is kept.
   */
  function SetColor(t: Trellis, x: int, y: int, c: Color): (t': Trellis)
    requires Tiled(t) && BoardsFit(t) && 0 <= x < t.width && 0 <= y < t.height
    ensures Tiled(t') && BoardsFit(t') && t'.rows == t.rows && t'.cols == t.cols
    ensures var p, b := GetKeyPad(t, x, y), BoardAt(t, GetKeyPad(t, x, y));
      && OnlyBoardChanged(t, t', p, b.(pixels := t'.trelli[p.row][p.col].pixels))
      && t'.trelli[p.row][p.col].pixels.Keys == b.pixels.Keys + {Slot(t, x, y)}
      && t'.trelli[p.row][p.col].pixels[Slot(t, x, y)] == c
      && (forall k | k in b.pixels && k != Slot(t, x, y) :: t'.trelli[p.row][p.col].pixels[k] == b.pixels[k])
  {
    var p := GetKeyPad(t, x, y);
    var b := BoardAt(t, p);
    var nb := b.(pixels := b.pixels[Slot(t, x, y) := c]);
    ReplaceKeepsTiling(t, p, nb);
    t.(trelli := t.trelli[p.row := t.trelli[p.row][p.col := nb]])
  }

  /** The callback registered for cell `(x, y)`: the owning board's entry at the cell's slot. */
  function CallbackAt(t: Trellis, x: int, y: int): Option<Handler>
    requires Tiled(t) && BoardsFit(t) && 0 <= x < t.width && 0 <= y < t.height
  {
    BoardAt(t, GetKeyPad(t, x, y)).callbacks[Slot(t, x, y)]
  }

  /** The colour set for cell `(x, y)`, if any. */
  function PixelAt(t: Trellis, x: int, y: int): Option<Color>
    requires Tiled(t) && BoardsFit(t) && 0 <= x < t.width && 0 <= y < t.height
  {
    var pixels := BoardAt(t, GetKeyPad(t, x, y)).pixels;
    if Slot(t, x, y) in pixels then Some(pixels[Slot(t, x, y)]) else None
  }

  /**
    Seen by global cell, `set_callback(x, y, f)` is a map update: cell
    `(x, y)` now has `f` and every other cell keeps its callback.
   */
  lemma SetCallbackIsCellUpdate(t: Trellis, x: int, y: int, f: Option<Handler>, x': int, y': int)
    requires Tiled(t) && BoardsFit(t) && 0 <= x < t.width && 0 <= y < t.height
    requires 0 <= x' < t.width && 0 <= y' < t.height
    ensures CallbackAt(SetCallback(t, x, y, f), x', y') ==
      if x' == x && y' == y then f else CallbackAt(t, x', y')
  {
    var t' := SetCallback(t, x, y, f);
    assert GetKeyPad(t', x', y') == GetKeyPad(t, x', y');
    if GetKeyPad(t, x', y') == GetKeyPad(t, x, y) && Slot(t, x', y') == Slot(t, x, y) {
      RoutingInjective(t, x, y, x', y');
    }
  }

  /**
    Seen by global cell, `color(x, y, c)` is a map update: cell `(x, y)` now
    shows `c` and every other cell keeps its colour.
   */
  lemma SetColorIsCellUpdate(t: Trellis, x: int, y: int, c: Color, x': int, y': int)
    requires Tiled(t) && BoardsFit(t) && 0 <= x < t.width && 0 <= y < t.height
    requires 0 <= x' < t.width && 0 <= y' < t.height
    ensures PixelAt(SetColor(t, x, y, c), x', y') ==
      if x' == x && y' == y then Some(c) else PixelAt(t, x', y')
  {
    var t' := SetColor(t, x, y, c);
    assert GetKeyPad(t', x', y') == GetKeyPad(t, x', y');
    if GetKeyPad(t, x', y') == GetKeyPad(t, x, y) && Slot(t, x', y') == Slot(t, x, y) {
      RoutingInjective(t, x, y, x', y');
    }
  }

  /** Setting the same colour twice leaves the same state as setting it once. */
  lemma SetColorIdempotent(t: Trellis, x: int, y: int, c: Color)
    requires Tiled(t) && BoardsFit(t) && 0 <= x < t.width && 0 <= y < t.height
    ensures SetColor(SetColor(t, x, y, c), x, y, c) == SetColor(t, x, y, c)
  {
    var t1 := SetColor(t, x, y, c);
    var p := GetKeyPad(t, x, y);
    assert GetKeyPad(t1, x, y) == p;
    var b1 := BoardAt(t1, p);
    assert Slot(t1, x, y) == Slot(t, x, y);
    assert b1.pixels[Slot(t, x, y) := c] == b1.pixels;
    assert b1.(pixels := b1.pixels[Slot(t, x, y) := c]) == b1;
    assert t1.trelli[p.row][p.col := b1] == t1.trelli[p.row];
    assert t1.trelli[p.row := t1.trelli[p.row]] == t1.trelli;
  }

  /** A `set_event` call addressed to the board at `pad`. */
  datatype PadCall = PadCall(pad: Pos, call: SetEventCall)

  /** Python's `int(b)` for a bool passed where a number is expected. */
  function BoolAsInt(b: bool): int
  {
    if b then 1 else 0
  }

  /**
    `MultiTrellis.activate_key(x, y, edge, enable)` AS WRITTEN: it calls
    `pad.activate_key(pad.key_index(x, y), enable)`, so the owning board
    receives `enable` in its `edge` parameter and its own default `True` as
    `enable`; the caller's `edge` is never forwarded.
   */
  function ActivateKeyAsWritten(t: Trellis, x: int, y: int, edge: int, enable: bool): (c: PadCall)
    requires Tiled(t) && 0 <= x < t.width && 0 <= y < t.height
    ensures c.pad == GetKeyPad(t, x, y)
    ensures c.call == SetEventCall(KeyIndex(BoardAt(t, c.pad), x, y), BoolAsInt(enable), true)
    ensures 0 <= c.call.key < BoardAt(t, c.pad).width * BoardAt(t, c.pad).height
  {
    var p := GetKeyPad(t, x, y);
    KeyIndexRoundTrip(BoardAt(t, p), x, y);
    PadCall(p, NeoTrellis.ActivateKey(KeyIndex(BoardAt(t, p), x, y), BoolAsInt(enable), true))
  }

  /**
    `activate_key` as its documentation describes it: the owning board is
    asked to register (or, with `enable` false, unregister) `edge` for the
    cell's local key.
   */
  function ActivateKey(t: Trellis, x: int, y: int, edge: int, enable: bool): (c: PadCall)
    requires Tiled(t) && 0 <= x < t.width && 0 <= y < t.height
    ensures c.pad == GetKeyPad(t, x, y)
    ensures c.call == SetEventCall(KeyIndex(BoardAt(t, c.pad), x, y), edge, enable)
    ensures 0 <= c.call.key < BoardAt(t, c.pad).width * BoardAt(t, c.pad).height
  {
    var p := GetKeyPad(t, x, y);
    KeyIndexRoundTrip(BoardAt(t, p), x, y);
    PadCall(p, NeoTrellis.ActivateKey(KeyIndex(BoardAt(t, p), x, y), edge, enable))
  }

  /**
    The written `activate_key` agrees with the documented one only when the
    caller asks to enable edge code 1 (the value `True` stands for); for any
    other request, e.g. disabling a key or enabling the rising edge (code 3),
    the board receives a different request. Its result does not depend on
    `edge` at all.
   */
  lemma ActivateKeyAsWrittenDiffers(t: Trellis, x: int, y: int, edge: int, enable: bool, edge': int)
    requires Tiled(t) && 0 <= x < t.width && 0 <= y < t.height
    ensures ActivateKeyAsWritten(t, x, y, edge, enable) == ActivateKey(t, x, y, edge, enable)
      <==> (enable && edge == 1)
    ensures ActivateKeyAsWritten(t, x, y, edge, enable) == ActivateKeyAsWritten(t, x, y, edge', enable)
    ensures ActivateKeyAsWritten(t, x, y, edge, false).call.enable
  {
  }

  /** One board's inputs for a `sync`: the pending count it reports and the buffer its read returns. */
  datatype Poll = Poll(count: int, responses: seq<bv8>)

  /** The first `m` boards of grid-row `n`, left to right. */
  function RowPositions(n: nat, m: nat): seq<Pos>
  {
    if m == 0 then [] else RowPositions(n, m - 1) + [Pos(n, m - 1)]
  }

  /** Grid-row `n`'s first `m` boards are `(n, 0), ..., (n, m - 1)`. */
  lemma {:induction false} RowPositionsAt(n: nat, m: nat, c: nat)
    requires c < m
    ensures |RowPositions(n, m)| == m && RowPositions(n, m)[c] == Pos(n, c)
  {
    if c < m - 1 {
      RowPositionsAt(n, m - 1, c);
    } else {
      RowPositionsLength(n, m - 1);
    }
  }

  lemma {:induction false} RowPositionsLength(n: nat, m: nat)
    ensures |RowPositions(n, m)| == m
  {
    if m > 0 {
      RowPositionsLength(n, m - 1);
    }
  }

  /** The boards of a `rows` by `cols` grid in row-major order. */
  function RowMajor(rows: nat, cols: nat): seq<Pos>
  {
    if rows == 0 then [] else RowMajor(rows - 1, cols) + RowPositions(rows - 1, cols)
  }

  lemma {:induction false} RowMajorLength(rows: nat, cols: nat)
    ensures |RowMajor(rows, cols)| == rows * cols
  {
    if rows > 0 {
      RowMajorLength(rows - 1, cols);
      RowPositionsLength(rows - 1, cols);
      assert rows * cols == (rows - 1) * cols + cols;
    }
  }

  /** Index `i` of the row-major order names board `(i / cols, i % cols)`. */
  lemma {:induction false} RowMajorAt(rows: nat, cols: nat, i: nat)
    requires i < rows * cols
    ensures |RowMajor(rows, cols)| == rows * cols
    ensures RowMajor(rows, cols)[i] == Pos(i / cols, i % cols)
    decreases rows
  {
    var prev := (rows - 1) * cols;
    var front, row := RowMajor(rows - 1, cols), RowPositions(rows - 1, cols);
    assert rows * cols == prev + cols;
    assert |front| == prev by { RowMajorLength(rows - 1, cols); }
    assert |row| == cols by { RowPositionsLength(rows - 1, cols); }
    assert RowMajor(rows, cols) == front + row;
    if i < prev {
      assert front[i] == Pos(i / cols, i % cols) by { RowMajorAt(rows - 1, cols, i); }
    } else {
      assert i / cols == rows - 1 && i % cols == i - prev by { DivModUnique(i, cols, rows - 1, i - prev); }
      assert row[i - prev] == Pos(rows - 1, i - prev) by { RowPositionsAt(rows - 1, cols, i - prev); }
    }
  }

  /** The row-major order lists board `(i / cols, i % cols)` at index `i`. */
  lemma RowMajorIndex(rows: nat, cols: nat)
    ensures |RowMajor(rows, cols)| == rows * cols
    ensures forall i | 0 <= i < rows * cols :: RowMajor(rows, cols)[i] == Pos(i / cols, i % cols)
  {
    RowMajorLength(rows, cols);
    forall i | 0 <= i < rows * cols ensures RowMajor(rows, cols)[i] == Pos(i / cols, i % cols) {
      RowMajorAt(rows, cols, i);
    }
  }

  /** Every board of the grid appears in the row-major order, at index `row * cols + col`. */
  lemma RowMajorCovers(rows: nat, cols: nat)
    ensures forall py, px | 0 <= py < rows && 0 <= px < cols ::
      py * cols + px < |RowMajor(rows, cols)| && RowMajor(rows, cols)[py * cols + px] == Pos(py, px)
  {
    forall py, px | 0 <= py < rows && 0 <= px < cols
      ensures py * cols + px < |RowMajor(rows, cols)| && RowMajor(rows, cols)[py * cols + px] == Pos(py, px)
    {
      RowMajorPosition(rows, cols, py, px);
    }
  }

  lemma RowMajorPosition(rows: nat, cols: nat, py: nat, px: nat)
    requires py < rows && px < cols
    ensures py * cols + px < rows * cols && |RowMajor(rows, cols)| == rows * cols
    ensures RowMajor(rows, cols)[py * cols + px] == Pos(py, px)
  {
    var i := py * cols + px;
    assert i < rows * cols by {
      MulMonotone(py + 1, rows, cols);
      assert (py + 1) * cols == py * cols + cols;
    }
    assert i / cols == py && i % cols == px by {
      DivModUnique(i, cols, py, px);
    }
    RowMajorAt(rows, cols, i);
  }

  /** The grid is `rows` by `cols`. */
  predicate Rectangular(t: Trellis)
  {
    t.rows == |t.trelli| && forall py | 0 <= py < t.rows :: |t.trelli[py]| == t.cols
  }

  /** What the boards' own `sync` calls run, board by board: entry `[n][m]` is board `(n, m)`'s calls. */
  function BoardTraces(t: Trellis, polls: seq<seq<Poll>>): (traces: seq<seq<seq<Invocation>>>)
    requires Rectangular(t) && TablesFull(t) && |polls| == t.rows
    requires forall py | 0 <= py < t.rows :: |polls[py]| == t.cols
    ensures |traces| == t.rows && forall n | 0 <= n < t.rows :: |traces[n]| == t.cols
  {
    seq(t.rows, n requires 0 <= n < t.rows =>
      seq(t.cols, m requires 0 <= m < t.cols =>
        Sync(t.trelli[n][m], polls[n][m].count, polls[n][m].responses).trace))
  }

  /** One entry of the table, or nothing for a position outside it. */
  function TraceOf(traces: seq<seq<seq<Invocation>>>, p: Pos): seq<Invocation>
  {
    if p.row < |traces| && p.col < |traces[p.row]| then traces[p.row][p.col] else []
  }

  /** The calls run when the boards sync in the given order, one after another. */
  function TraceAlong(traces: seq<seq<seq<Invocation>>>, order: seq<Pos>): seq<Invocation>
  {
    if |order| == 0 then [] else TraceOf(traces, order[0]) + TraceAlong(traces, order[1..])
  }

  /** Syncing `a` then `b` runs the calls of `a`, then those of `b`. */
  lemma {:induction false} TraceAlongAppend(traces: seq<seq<seq<Invocation>>>, a: seq<Pos>, b: seq<Pos>)
    ensures TraceAlong(traces, a + b) == TraceAlong(traces, a) + TraceAlong(traces, b)
  {
    if |a| > 0 {
      assert (a + b)[0] == a[0];
      assert (a + b)[1..] == a[1..] + b;
      TraceAlongAppend(traces, a[1..], b);
      AppendAssoc(TraceOf(traces, a[0]), TraceAlong(traces, a[1..]), TraceAlong(traces, b));
    } else {
      assert a + b == b;
    }
  }

  /** Syncing one more board appends its calls. */
  lemma TraceAlongSnoc(traces: seq<seq<seq<Invocation>>>, order: seq<Pos>, p: Pos)
    ensures TraceAlong(traces, order + [p]) == TraceAlong(traces, order) + TraceOf(traces, p)
  {
    TraceAlongAppend(traces, order, [p]);
    assert [p][1..] == [];
  }

  /** Entry `(n, m)` of the table is what board `(n, m)`'s own `sync` runs. */
  lemma BoardTraceAt(t: Trellis, polls: seq<seq<Poll>>, n: nat, m: nat)
    requires Rectangular(t) && TablesFull(t) && |polls| == t.rows
    requires forall py | 0 <= py < t.rows :: |polls[py]| == t.cols
    requires n < t.rows && m < t.cols
    ensures |t.trelli[n][m].callbacks| == NumKeys && |polls[n]| == t.cols
    ensures TraceOf(BoardTraces(t, polls), Pos(n, m)) ==
      Sync(t.trelli[n][m], polls[n][m].count, polls[n][m].responses).trace
  {
  }

  /** One step of the inner loop extends the visiting order by board `(n, m)` and the calls by its calls. */
  lemma RowStep(traces: seq<seq<seq<Invocation>>>, n: nat, m: nat, visited0: seq<Pos>, trace0: seq<Invocation>,
                visited: seq<Pos>, trace: seq<Invocation>)
    requires visited == visited0 + RowPositions(n, m)
    requires trace == trace0 + TraceAlong(traces, RowPositions(n, m))
    ensures visited + [Pos(n, m)] == visited0 + RowPositions(n, m + 1)
    ensures trace + TraceOf(traces, Pos(n, m)) == trace0 + TraceAlong(traces, RowPositions(n, m + 1))
  {
    assert RowPositions(n, m + 1) == RowPositions(n, m) + [Pos(n, m)];
    AppendAssoc(visited0, RowPositions(n, m), [Pos(n, m)]);
    TraceAlongSnoc(traces, RowPositions(n, m), Pos(n, m));
    AppendAssoc(trace0, TraceAlong(traces, RowPositions(n, m)), TraceOf(traces, Pos(n, m)));
  }

  /** One step of the outer loop: a whole grid-row appended to the boards synced so far. */
  lemma GridStep(traces: seq<seq<seq<Invocation>>>, n: nat, cols: nat, trace0: seq<Invocation>, trace: seq<Invocation>)
    requires trace0 == TraceAlong(traces, RowMajor(n, cols))
    requires trace == trace0 + TraceAlong(traces, RowPositions(n, cols))
    ensures trace == TraceAlong(traces, RowMajor(n + 1, cols))
  {
    assert RowMajor(n + 1, cols) == RowMajor(n, cols) + RowPositions(n, cols);
    TraceAlongAppend(traces, RowMajor(n, cols), RowPositions(n, cols));
  }

  /** The inner loop of `MultiTrellis.sync`: syncs the boards of grid-row `n` left to right. */
  method SyncRow(t: Trellis, polls: seq<seq<Poll>>, ghost traces: seq<seq<seq<Invocation>>>, n: nat,
                 visited0: seq<Pos>, trace0: seq<Invocation>)
    returns (visited: seq<Pos>, trace: seq<Invocation>)
    requires Rectangular(t) && TablesFull(t) && |polls| == t.rows && n < t.rows
    requires forall py | 0 <= py < t.rows :: |polls[py]| == t.cols
    requires traces == BoardTraces(t, polls)
    ensures visited == visited0 + RowPositions(n, t.cols)
    ensures trace == trace0 + TraceAlong(traces, RowPositions(n, t.cols))
  {
    visited, trace := visited0, trace0;
    var m := 0;
    while m < t.cols
      invariant 0 <= m <= t.cols
      invariant visited == visited0 + RowPositions(n, m)
      invariant trace == trace0 + TraceAlong(traces, RowPositions(n, m))
    {
      BoardTraceAt(t, polls, n, m);
      var o := Sync(t.trelli[n][m], polls[n][m].count, polls[n][m].responses);
      RowStep(traces, n, m, visited0, trace0, visited, trace);
      visited, trace := visited + [Pos(n, m)], trace + o.trace;
      m := m + 1;
    }
  }

  /**
    `MultiTrellis.sync`: syncs every board once, grid-row by grid-row and
    left to right within a row; the callbacks run are the boards' own
    calls, concatenated in that order.
   */
  method SyncAll(t: Trellis, polls: seq<seq<Poll>>) returns (visited: seq<Pos>, trace: seq<Invocation>)
    requires Rectangular(t) && TablesFull(t) && |polls| == t.rows
    requires forall py | 0 <= py < t.rows :: |polls[py]| == t.cols
    ensures visited == RowMajor(t.rows, t.cols)
    ensures trace == TraceAlong(BoardTraces(t, polls), visited)
  {
    ghost var traces := BoardTraces(t, polls);
    visited, trace := [], [];
    var n := 0;
    while n < t.rows
      invariant 0 <= n <= t.rows
      invariant visited == RowMajor(n, t.cols)
      invariant trace == TraceAlong(traces, visited)
    {
      ghost var trace0 := trace;
      visited, trace := SyncRow(t, polls, traces, n, visited, trace);
      assert RowMajor(n + 1, t.cols) == RowMajor(n, t.cols) + RowPositions(n, t.cols);
      GridStep(traces, n, t.cols, trace0, trace);
      n := n + 1;
    }
  }

  /**
    An event on a board reaches the callback registered for the global cell
    whose slot it names: a single response for the slot of cell `(x, y)`,
    read by the owning board, runs exactly `CallbackAt(x, y)` once with the
    decoded event, or nothing when the cell has no callback.
   */
  lemma EventReachesCellCallback(t: Trellis, x: int, y: int, count: int, raw: bv8)
    requires Tiled(t) && BoardsFit(t) && 0 <= x < t.width && 0 <= y < t.height
    requires count > 0 && Decode(raw).number == Slot(t, x, y)
    ensures Fits(BoardAt(t, GetKeyPad(t, x, y)))
    ensures Sync(BoardAt(t, GetKeyPad(t, x, y)), count, [raw]).trace ==
      match CallbackAt(t, x, y)
      case Some(h) => [Invocation(h, Decode(raw))]
      case None => []
  {
    var b := BoardAt(t, GetKeyPad(t, x, y));
    assert Fits(b);
    assert [raw][1..] == [];
  }

  /**
    `set_callback(x, y, f)` followed by an event for that cell on the owning
    board runs `f` exactly once, with the decoded event.
   */
  lemma SetCallbackThenEventFires(t: Trellis, x: int, y: int, h: Handler, count: int, raw: bv8)
    requires Tiled(t) && BoardsFit(t) && 0 <= x < t.width && 0 <= y < t.height
    requires count > 0 && Decode(raw).number == Slot(t, x, y)
    ensures var t' := SetCallback(t, x, y, Some(h));
      && Fits(BoardAt(t', GetKeyPad(t, x, y)))
      && Sync(BoardAt(t', GetKeyPad(t, x, y)), count, [raw]).trace == [Invocation(h, Decode(raw))]
  {
    var t' := SetCallback(t, x, y, Some(h));
    assert GetKeyPad(t', x, y) == GetKeyPad(t, x, y);
    assert Slot(t', x, y) == Slot(t, x, y);
    SetCallbackIsCellUpdate(t, x, y, Some(h), x, y);
    EventReachesCellCallback(t', x, y, count, raw);
  }
}

=== FILE: neotrellis.dfy ===
/**
  One NeoTrellis board (adafruit_neotrellis/neotrellis.py): the key-number
  helpers, the callback table, key activation, and the decoding and dispatch
  half of `sync`.

  The board's geometry (`width`, `height`, `x_base`, `y_base`) and its
  `key_index` come from the seesaw `Keypad` base class, which is not part of
  this model; `KeyIndex` below is the ASSUMED row-major formula, not a
  verified implementation. The I2C transport (`count`, `read_keypad`,
  `set_event`) is replaced by inputs and by returned call records.
 */
module NeoTrellis {
  import opened Common
  import opened Arith

  /** The key grid of one board; declared by the driver but never read by it. */
  const NumRows: nat := 8
  const NumCols: nat := 8
  /** Size of the callback table and of the pixel strip. */
  const NumKeys: nat := 64
  /** Declared by the driver but never read by it. */
  const MaxCallbacks: nat := 64

  /** Python's `int(a / b)` for a positive divisor: true division, then truncation toward zero. */
  function TruncDiv(a: int, b: int): int
    requires b > 0
  {
    if a >= 0 then a / b else -((-a) / b)
  }

  /**
    `_key`: `int(x / 8) * 8 + x % 8`, with Python's truncating `int()` and
    flooring `%`. It is the identity on every non-negative key; a negative
    key that is not a multiple of 8 comes back 8 higher.
   */
  function Key(xval: int): (r: int)
    ensures 0 <= xval ==> r == xval
    ensures xval < 0 ==> r == (if xval % 8 == 0 then xval else xval + 8)
  {
    TruncDiv(xval, 8) * 8 + xval % 8
  }

  /** `_seesaw_key`: the same formula as `_key`, applied to key numbers read back from the board. */
  function SeesawKey(xval: int): (r: int)
    ensures 0 <= xval ==> r == xval
    ensures xval < 0 ==> r == (if xval % 8 == 0 then xval else xval + 8)
  {
    TruncDiv(xval, 8) * 8 + xval % 8
  }

  /** Identity of a user-supplied callback function. */
  datatype Handler = Handler(id: nat)

  /** An opaque pixel colour, passed through unchanged. */
  datatype Color = Color(rgb: nat)

  /**
    A board: geometry and offset (from the `Keypad` base class), the 64-entry
    callback table, and the pixel colours set so far, by pixel index.
   */
  datatype Board = Board(
    width: nat,
    height: nat,
    xBase: int,
    yBase: int,
    callbacks: seq<Option<Handler>>,
    pixels: map<nat, Color>)

  /**
    `NeoTrellis.__init__`: a fresh board whose callback table holds
    `NumKeys` empty entries and which has no pixel set. The base
    class's initial offsets are not shown; they are taken to be 0.
   */
  function NewBoard(width: nat, height: nat): (b: Board)
    ensures b.width == width && b.height == height
    ensures |b.callbacks| == NumKeys
    ensures forall k | 0 <= k < |b.callbacks| :: b.callbacks[k] == None
    ensures b.pixels == map[]
  {
    Board(width, height, 0, 0, seq(NumKeys, _ => None), map[])
  }

  /** Global cell `(x, y)` lies inside the board's tile. */
  predicate InTile(b: Board, x: int, y: int)
  {
    b.xBase <= x < b.xBase + b.width && b.yBase <= y < b.yBase + b.height
  }

  /** ASSUMED `Keypad.key_index`: row-major local slot of global cell `(x, y)`. */
  function KeyIndex(b: Board, x: int, y: int): int
  {
    (y - b.yBase) * b.width + (x - b.xBase)
  }

  /** ASSUMED `Keypad.key_xy`: the global cell of local slot `i`. */
  function KeyXY(b: Board, i: int): (int, int)
    requires b.width > 0
  {
    (b.xBase + i % b.width, b.yBase + i / b.width)
  }

  /** A cell of the tile maps to a slot in `[0, width * height)`, and `KeyXY` maps it back. */
  lemma KeyIndexRoundTrip(b: Board, x: int, y: int)
    requires InTile(b, x, y)
    ensures 0 <= KeyIndex(b, x, y) < b.width * b.height
    ensures KeyXY(b, KeyIndex(b, x, y)) == (x, y)
  {
    var ly, lx := y - b.yBase, x - b.xBase;
    DivModUnique(KeyIndex(b, x, y), b.width, ly, lx);
    MulMonotone(ly + 1, b.height, b.width);
  }

  /** Every slot in `[0, width * height)` is the slot of exactly the tile cell `KeyXY` names. */
  lemma KeyXYRoundTrip(b: Board, i: int)
    requires 0 <= i < b.width * b.height
    ensures b.width > 0
    ensures InTile(b, KeyXY(b, i).0, KeyXY(b, i).1)
    ensures KeyIndex(b, KeyXY(b, i).0, KeyXY(b, i).1) == i
  {
    var q, r := i / b.width, i % b.width;
    assert i == q * b.width + r;
    if q >= b.height {
      MulMonotone(b.height, q, b.width);
    }
  }

  /**
    The call `activate_key` makes on the seesaw `set_event` (not modelled):
    key number, edge code and enable flag.
   */
  datatype SetEventCall = SetEventCall(key: int, edge: int, enable: bool)

  /** `NeoTrellis.activate_key(key, edge, enable)`: forwards all three to `set_event`. */
  function ActivateKey(key: int, edge: int, enable: bool): (c: SetEventCall)
    ensures c.edge == edge && c.enable == enable
    ensures 0 <= key ==> c.key == key
    ensures key < 0 ==> c.key == key || c.key == key + 8
  {
    SetEventCall(Key(key), edge, enable)
  }

  /** A decoded keypad event: board-local key number and edge code. */
  datatype KeyEvent = KeyEvent(number: nat, edge: nat)

  /** One callback invocation: which handler ran, and on which event. */
  datatype Invocation = Invocation(handler: Handler, event: KeyEvent)

  /**
    Decoding of one response byte: key number `_seesaw_key((raw >> 2) & 0x3F)`,
    edge `raw & 0x3`.
   */
  function Decode(raw: bv8): (e: KeyEvent)
    ensures e.number < NumKeys && e.edge < 4
  {
    var n := ((raw >> 2) & 0x3F) as int;
    KeyEvent(SeesawKey(n), (raw & 0x3) as int)
  }

  /** Packing a 6-bit key number and a 2-bit edge code into a response byte, as the board does. */
  function Encode(key: bv8, edge: bv8): bv8
    requires key < 64 && edge < 4
  {
    (key << 2) | edge
  }

  /** The decoded fields recombine to the byte: `raw == number * 4 + edge`. */
  lemma DecodeRecombines(raw: bv8)
    ensures Decode(raw).number * 4 + Decode(raw).edge == raw as int
  {
  }

  /** Every key number below 64 and edge code below 4 is decoded back from its packed byte. */
  lemma DecodeEncode(key: bv8, edge: bv8)
    requires key < 64 && edge < 4
    ensures Decode(Encode(key, edge)) == KeyEvent(key as int, edge as int)
  {
    var raw := Encode(key, edge);
    assert (raw >> 2) & 0x3F == key;
    assert raw & 0x3 == edge;
  }

  /** The two fields decoding reads cover the whole byte: packing them again gives the byte back. */
  lemma EncodeDecode(raw: bv8)
    ensures Encode((raw >> 2) & 0x3F, raw & 0x3) == raw
  {
  }

  /**
    One response of the dispatch loop: the decoded event reaches its
    callback only when the key number is below `NumKeys` and a callback is
    registered for it; otherwise the response is dropped.
   */
  function Fire(callbacks: seq<Option<Handler>>, raw: bv8): Option<Invocation>
    requires |callbacks| == NumKeys
  {
    var e := Decode(raw);
    if e.number < NumKeys && callbacks[e.number].Some? then
      Some(Invocation(callbacks[e.number].value, e))
    else
      None
  }

  /** The invocations one response causes: none or one. */
  function FireTrace(callbacks: seq<Option<Handler>>, raw: bv8): seq<Invocation>
    requires |callbacks| == NumKeys
  {
    match Fire(callbacks, raw)
    case Some(inv) => [inv]
    case None => []
  }

  /** The dispatch loop of `sync`: the invocations the responses cause, in buffer order. */
  function Dispatch(callbacks: seq<Option<Handler>>, buf: seq<bv8>): (trace: seq<Invocation>)
    requires |callbacks| == NumKeys
    ensures |trace| <= |buf|
    ensures forall k | 0 <= k < |trace| ::
      trace[k].event.number < NumKeys && trace[k].event.edge < 4 &&
      callbacks[trace[k].event.number] == Some(trace[k].handler)
  {
    if |buf| == 0 then [] else FireTrace(callbacks, buf[0]) + Dispatch(callbacks, buf[1..])
  }

  /** Responses are handled one after another: dispatching a split buffer concatenates the traces. */
  lemma {:induction false} DispatchAppend(callbacks: seq<Option<Handler>>, a: seq<bv8>, b: seq<bv8>)
    requires |callbacks| == NumKeys
    ensures Dispatch(callbacks, a + b) == Dispatch(callbacks, a) + Dispatch(callbacks, b)
  {
    if |a| > 0 {
      assert (a + b)[0] == a[0];
      assert (a + b)[1..] == a[1..] + b;
      DispatchAppend(callbacks, a[1..], b);
      AppendAssoc(FireTrace(callbacks, a[0]), Dispatch(callbacks, a[1..]), Dispatch(callbacks, b));
    } else {
      assert a + b == b;
    }
  }

  /**
    With a callback on every key, each response causes exactly one
    invocation, in buffer order, carrying that response's decoded event and
    the handler registered for its key.
   */
  lemma {:induction false} DispatchAllRegistered(callbacks: seq<Option<Handler>>, buf: seq<bv8>)
    requires |callbacks| == NumKeys
    requires forall k | 0 <= k < NumKeys :: callbacks[k].Some?
    ensures |Dispatch(callbacks, buf)| == |buf|
    ensures forall i | 0 <= i < |buf| ::
      Dispatch(callbacks, buf)[i] == Invocation(callbacks[Decode(buf[i]).number].value, Decode(buf[i]))
  {
    if |buf| > 0 {
      DispatchAllRegistered(callbacks, buf[1..]);
      var t := Dispatch(callbacks, buf);
      assert t == [Invocation(callbacks[Decode(buf[0]).number].value, Decode(buf[0]))] + Dispatch(callbacks, buf[1..]);
      forall i | 0 <= i < |buf|
        ensures t[i] == Invocation(callbacks[Decode(buf[i]).number].value, Decode(buf[i]))
      {
        if i > 0 {
          assert buf[1..][i - 1] == buf[i];
        }
      }
    }
  }

  /**
    A response whose key has no callback leaves no trace: removing it from
    the buffer does not change the invocations.
   */
  lemma DispatchDropsUnregistered(callbacks: seq<Option<Handler>>, a: seq<bv8>, raw: bv8, b: seq<bv8>)
    requires |callbacks| == NumKeys
    requires callbacks[Decode(raw).number] == None
    ensures Dispatch(callbacks, a + [raw] + b) == Dispatch(callbacks, a + b)
  {
    assert Dispatch(callbacks, a + [raw]) == Dispatch(callbacks, a) by {
      DispatchAppend(callbacks, a, [raw]);
      assert [raw][1..] == [];
      assert Dispatch(callbacks, [raw]) == [];
    }
    assert Dispatch(callbacks, a + [raw] + b) == Dispatch(callbacks, a) + Dispatch(callbacks, b) by {
      DispatchAppend(callbacks, a + [raw], b);
    }
    DispatchAppend(callbacks, a, b);
  }

  /**
    A response whose key has a callback runs exactly that callback, once,
    with the response's decoded event, between the calls of the responses
    before it and those of the responses after it.
   */
  lemma DispatchFiresRegistered(callbacks: seq<Option<Handler>>, a: seq<bv8>, raw: bv8, b: seq<bv8>)
    requires |callbacks| == NumKeys
    requires callbacks[Decode(raw).number].Some?
    ensures Dispatch(callbacks, a + [raw] + b) ==
      Dispatch(callbacks, a) + [Invocation(callbacks[Decode(raw).number].value, Decode(raw))] + Dispatch(callbacks, b)
  {
    assert Dispatch(callbacks, [raw]) == [Invocation(callbacks[Decode(raw).number].value, Decode(raw))] by {
      assert [raw][1..] == [];
    }
    DispatchAppend(callbacks, a, [raw]);
    DispatchAppend(callbacks, a + [raw], b);
  }

  /** A fresh board has no callbacks, so no response ever invokes anything. */
  lemma {:induction false} FreshBoardIsSilent(width: nat, height: nat, buf: seq<bv8>)
    ensures Dispatch(NewBoard(width, height).callbacks, buf) == []
  {
    var cb := NewBoard(width, height).callbacks;
    if |buf| > 0 {
      FreshBoardIsSilent(width, height, buf[1..]);
      assert Fire(cb, buf[0]) == None;
    }
  }

  /** What one `sync` of a board does: the read it requests (if any) and the callbacks it runs. */
  datatype SyncOutcome = SyncOutcome(requested: Option<nat>, trace: seq<Invocation>)

  /**
    `NeoTrellis.sync`: `count` is the pending-event count the board reports
    and `responses` the buffer `read_keypad` returns. Nothing is read when
    the count is not positive; otherwise `count + 2` entries are requested
    and the responses are dispatched in order.
   */
  function Sync(b: Board, count: int, responses: seq<bv8>): (o: SyncOutcome)
    requires |b.callbacks| == NumKeys
    ensures count <= 0 ==> o.trace == []
    ensures count > 0 ==> o.trace == Dispatch(b.callbacks, responses)
    ensures o.requested.Some? <==> count > 0
    ensures o.requested.Some? ==> o.requested.value == count + 2
    ensures |o.trace| <= |responses|
  {
    if count > 0 then
      SyncOutcome(Some(count + 2), Dispatch(b.callbacks, responses))
    else
      SyncOutcome(None, [])
  }
}

=== FILE: prefix_sums.dfy ===
/**
  Prefix sums over a sequence of non-negative sizes, and the lookup of the
  interval `[Prefix(s, i), Prefix(s, i + 1))` that holds a given coordinate.
  Both axes of the board matrix are laid out this way: column widths along x,
  row heights along y.
 */
module PrefixSums {

  /** Sum of the first `n` entries of `s`. */
  function Prefix(s: seq<nat>, n: nat): nat
    requires n <= |s|
  {
    if n == 0 then 0 else Prefix(s, n - 1) + s[n - 1]
  }

  /** Sum of all entries of `s`. */
  function Total(s: seq<nat>): nat
  {
    Prefix(s, |s|)
  }

  lemma {:induction false} PrefixMonotone(s: seq<nat>, i: nat, j: nat)
    requires i <= j <= |s|
    ensures Prefix(s, i) <= Prefix(s, j)
    decreases j - i
  {
    if i < j {
      PrefixMonotone(s, i, j - 1);
    }
  }

  /** Two sequences that agree entry by entry on `[0, n)` have the same prefix sum up to `n`. */
  lemma {:induction false} PrefixPointwise(s: seq<nat>, t: seq<nat>, n: nat)
    requires n <= |s| && n <= |t|
    requires forall i | 0 <= i < n :: s[i] == t[i]
    ensures Prefix(s, n) == Prefix(t, n)
  {
    if n > 0 {
      PrefixPointwise(s, t, n - 1);
    }
  }

  /** The index of the interval that holds `v`, searching upward from `i`. */
  function LocateFrom(s: seq<nat>, v: int, i: nat): (k: nat)
    requires i < |s| && Prefix(s, i) <= v < Total(s)
    ensures i <= k < |s|
    ensures Prefix(s, k) <= v < Prefix(s, k + 1)
    decreases |s| - i
  {
    if v < Prefix(s, i + 1) then i else LocateFrom(s, v, i + 1)
  }

  /** The index of the interval that holds `v`. */
  function Locate(s: seq<nat>, v: int): (k: nat)
    requires 0 <= v < Total(s)
    ensures k < |s|
    ensures Prefix(s, k) <= v < Prefix(s, k + 1)
  {
    LocateFrom(s, v, 0)
  }

  /**
    The intervals are pairwise disjoint: an index whose interval holds `v`
    is the one `Locate` finds, and `v` lies inside the total extent.
   */
  lemma LocateUnique(s: seq<nat>, v: int, i: nat)
    requires i < |s| && Prefix(s, i) <= v < Prefix(s, i + 1)
    ensures v < Total(s)
    ensures Locate(s, v) == i
  {
    PrefixMonotone(s, i + 1, |s|);
    var k := Locate(s, v);
    if k < i {
      PrefixMonotone(s, k + 1, i);
    } else if k > i {
      PrefixMonotone(s, i + 1, k);
    }
  }
}

=== FILE: tiling.dfy ===
/**
  The geometry of a MultiTrellis (adafruit_neotrellis/multitrellis.py): a
  rows-by-cols grid of boards laid side by side. Column widths and row
  heights are taken from the grid, each board's offset is the prefix sum of
  the widths to its left and the heights above it, and every global cell is
  owned by exactly one board. `Layout` is the reference description of what
  the constructor builds; `Tiled` is the invariant the routing operations
  rely on.
 */
module Tiling {
  import opened Common
  import opened PrefixSums
  import opened NeoTrellis

  /** Position of a board in the grid: grid-row `row` (`py`), grid-column `col` (`px`). */
  datatype Pos = Pos(row: nat, col: nat)

  /**
    A constructed matrix: the grid with offsets assigned (`_trelli`),
    `_rows`, `_cols`, `_width`, `_height` and the cell-to-board table
    `_key_pads`, whose entries name the owning board by grid position.
   */
  datatype Trellis = Trellis(
    trelli: seq<seq<Board>>,
    rows: nat,
    cols: nat,
    width: nat,
    height: nat,
    keyPads: seq<seq<Option<Pos>>>)

  /** Widths of the boards in grid-row 0, one per grid-column. */
  function ColWidths(g: seq<seq<Board>>): (w: seq<nat>)
    ensures |g| > 0 ==> |w| == |g[0]|
  {
    if |g| == 0 then [] else seq(|g[0]|, px requires 0 <= px < |g[0]| => g[0][px].width)
  }

  /** Heights of the boards in grid-column 0, one per grid-row (0 for an empty row). */
  function RowHeights(g: seq<seq<Board>>): (h: seq<nat>)
    ensures |h| == |g|
  {
    seq(|g|, py requires 0 <= py < |g| => if |g[py]| > 0 then g[py][0].height else 0)
  }

  /** Widths along grid-row `py`. */
  function RowWidths(g: seq<seq<Board>>, py: nat): (w: seq<nat>)
    requires py < |g|
    ensures |w| == |g[py]|
  {
    seq(|g[py]|, px requires 0 <= px < |g[py]| => g[py][px].width)
  }

  /** Heights down grid-column `px` (every row must reach that column). */
  function ColHeights(g: seq<seq<Board>>, px: nat): (h: seq<nat>)
    requires forall py | 0 <= py < |g| :: px < |g[py]|
    ensures |h| == |g|
  {
    seq(|g|, py requires 0 <= py < |g| => g[py][px].height)
  }

  /**
    The two shape assertions of the constructor at one position: the board
    is as high as the first board of its grid-row and as wide as the first
    board of its grid-column.
   */
  predicate PositionOk(g: seq<seq<Board>>, py: nat, px: nat)
    requires py < |g| && px < |g[py]| && px < |g[0]|
  {
    g[py][px].height == g[py][0].height && g[py][px].width == g[0][px].width
  }

  /** Grid-row `py` has `cols` boards and every position in it passes both shape assertions. */
  predicate RowPasses(g: seq<seq<Board>>, py: nat)
    requires py < |g|
  {
    |g[py]| == |g[0]| && forall px | 0 <= px < |g[0]| :: PositionOk(g, py, px)
  }

  /** A grid the constructor accepts. */
  predicate Shaped(g: seq<seq<Board>>)
  {
    && |g| > 0 && |g[0]| > 0
    && (forall py | 0 <= py < |g| :: |g[py]| == |g[0]|)
    && (forall py, px | 0 <= py < |g| && 0 <= px < |g[0]| :: PositionOk(g, py, px))
  }

  /** The board at `(py, px)` with the offsets the constructor assigns to it. */
  function Placed(g: seq<seq<Board>>, py: nat, px: nat): Board
    requires 0 < |g| && py < |g| && px < |g[py]| && px <= |g[0]|
  {
    g[py][px].(xBase := Prefix(ColWidths(g), px), yBase := Prefix(RowHeights(g), py))
  }

  /**
    Reference description of the constructed matrix: offsets are prefix
    sums, the extent is the total of the column widths by the total of the
    row heights, and cell `(x, y)` belongs to the board whose column
    interval holds `x` and whose row interval holds `y`.
   */
  function Layout(g: seq<seq<Board>>): Trellis
    requires Shaped(g)
  {
    var cw, rh := ColWidths(g), RowHeights(g);
    Trellis(
      seq(|g|, py requires 0 <= py < |g| =>
        seq(|g[0]|, px requires 0 <= px < |g[0]| => Placed(g, py, px))),
      |g|, |g[0]|, Total(cw), Total(rh),
      seq(Total(rh), y requires 0 <= y < Total(rh) =>
        seq(Total(cw), x requires 0 <= x < Total(cw) => Some(Pos(Locate(rh, y), Locate(cw, x))))))
  }

  /**
    The tiling invariant: a rectangular grid, a `height` by `width` table
    with no empty cell, every cell owned by a board whose tile holds it, and
    every cell of every tile inside the matrix and owned by that very board.
   */
  ghost predicate Tiled(t: Trellis)
  {
    && t.rows == |t.trelli| && t.rows > 0 && t.cols > 0
    && (forall py | 0 <= py < t.rows :: |t.trelli[py]| == t.cols)
    && |t.keyPads| == t.height
    && (forall y | 0 <= y < t.height :: |t.keyPads[y]| == t.width)
    && (forall y, x | 0 <= y < t.height && 0 <= x < t.width ::
          && t.keyPads[y][x].Some?
          && t.keyPads[y][x].value.row < t.rows
          && t.keyPads[y][x].value.col < t.cols
          && InTile(t.trelli[t.keyPads[y][x].value.row][t.keyPads[y][x].value.col], x, y))
    && (forall py, px, x, y {:trigger InTile(t.trelli[py][px], x, y)}
          | 0 <= py < t.rows && 0 <= px < t.cols && InTile(t.trelli[py][px], x, y) ::
          0 <= x < t.width && 0 <= y < t.height && t.keyPads[y][x] == Some(Pos(py, px)))
  }

  /** The constructor's result is a gap-free, overlap-free tiling of `[0, width) x [0, height)`. */
  lemma LayoutTiled(g: seq<seq<Board>>)
    requires Shaped(g)
    ensures Tiled(Layout(g))
  {
    var t := Layout(g);
    var cw, rh := ColWidths(g), RowHeights(g);
    forall y, x | 0 <= y < t.height && 0 <= x < t.width
      ensures t.keyPads[y][x].Some? && t.keyPads[y][x].value.row < t.rows && t.keyPads[y][x].value.col < t.cols
      ensures InTile(t.trelli[t.keyPads[y][x].value.row][t.keyPads[y][x].value.col], x, y)
    {
      var py, px := Locate(rh, y), Locate(cw, x);
      assert t.keyPads[y][x] == Some(Pos(py, px));
      assert PositionOk(g, py, px);
      assert t.trelli[py][px] == Placed(g, py, px);
    }
    forall py, px, x, y {:trigger InTile(t.trelli[py][px], x, y)}
      | 0 <= py < t.rows && 0 <= px < t.cols && InTile(t.trelli[py][px], x, y)
      ensures 0 <= x < t.width && 0 <= y < t.height && t.keyPads[y][x] == Some(Pos(py, px))
    {
      assert PositionOk(g, py, px);
      assert t.trelli[py][px] == Placed(g, py, px);
      LocateUnique(cw, x, px);
      LocateUnique(rh, y, py);
    }
  }

  /** No cell lies in two tiles. */
  lemma TilesDisjoint(t: Trellis, p: Pos, q: Pos, x: int, y: int)
    requires Tiled(t)
    requires p.row < t.rows && p.col < t.cols && q.row < t.rows && q.col < t.cols
    requires InTile(t.trelli[p.row][p.col], x, y) && InTile(t.trelli[q.row][q.col], x, y)
    ensures p == q
  {
  }

  /**
    The offsets do not depend on which row or column they are read along:
    `x_base` is the sum of the widths to the left in the board's own
    grid-row (hence equal down a grid-column), `y_base` the sum of the
    heights above in its own grid-column (hence equal along a grid-row), and
    `width`/`height` are the totals along any grid-row/grid-column.
   */
  lemma LayoutOffsets(g: seq<seq<Board>>)
    requires Shaped(g)
    ensures forall py, px | 0 <= py < |g| && 0 <= px < |g[0]| ::
      && Layout(g).trelli[py][px].xBase == Prefix(RowWidths(g, py), px)
      && Layout(g).trelli[py][px].yBase == Prefix(ColHeights(g, px), py)
    ensures forall py | 0 <= py < |g| :: Layout(g).width == Total(RowWidths(g, py))
    ensures forall px | 0 <= px < |g[0]| :: Layout(g).height == Total(ColHeights(g, px))
  {
    var t := Layout(g);
    var cw, rh := ColWidths(g), RowHeights(g);
    forall py | 0 <= py < |g|
      ensures forall px | 0 <= px <= |g[0]| :: Prefix(cw, px) == Prefix(RowWidths(g, py), px)
    {
      forall px | 0 <= px <= |g[0]| ensures Prefix(cw, px) == Prefix(RowWidths(g, py), px) {
        forall q | 0 <= q < px ensures cw[q] == RowWidths(g, py)[q] {
          assert PositionOk(g, py, q);
        }
        PrefixPointwise(cw, RowWidths(g, py), px);
      }
    }
    forall px | 0 <= px < |g[0]|
      ensures forall py | 0 <= py <= |g| :: Prefix(rh, py) == Prefix(ColHeights(g, px), py)
    {
      forall py | 0 <= py <= |g| ensures Prefix(rh, py) == Prefix(ColHeights(g, px), py) {
        forall q | 0 <= q < py ensures rh[q] == ColHeights(g, px)[q] {
          assert PositionOk(g, q, px);
        }
        PrefixPointwise(rh, ColHeights(g, px), py);
      }
    }
  }

  /** A board whose local slots fit its 64-entry callback table and 64-pixel strip. */
  predicate Fits(b: Board)
  {
    |b.callbacks| == NumKeys && b.width * b.height <= NumKeys
  }

  /** Every board of the matrix fits. */
  predicate BoardsFit(t: Trellis)
  {
    forall py, px | 0 <= py < |t.trelli| && 0 <= px < |t.trelli[py]| :: Fits(t.trelli[py][px])
  }

  /** Every board of the matrix has the full callback table a fresh board starts with. */
  predicate TablesFull(t: Trellis)
  {
    forall py, px | 0 <= py < |t.trelli| && 0 <= px < |t.trelli[py]| :: |t.trelli[py][px].callbacks| == NumKeys
  }

  /** Assigning offsets does not change a board's size or tables, so fitting boards stay fitting. */
  lemma LayoutFits(g: seq<seq<Board>>)
    requires Shaped(g)
    requires forall py, px | 0 <= py < |g| && 0 <= px < |g[py]| :: Fits(g[py][px])
    ensures BoardsFit(Layout(g))
  {
    var t := Layout(g);
    forall py, px | 0 <= py < |t.trelli| && 0 <= px < |t.trelli[py]|
      ensures Fits(t.trelli[py][px])
    {
      assert t.trelli[py][px] == Placed(g, py, px);
    }
  }
}
